=== FILE: README.md ===
# clap-link bridge of wolfram-cli, modelled in Dafny

wolfram-cli lets Wolfram Language code describe a command line as a symbolic
schema: `ClapCommand[name, {ClapArg[...], ...}, {subcommands...}, <|settings|>]`.
The clap-link library turns that schema into a `clap::Command`. It parses an
argument vector with clap, then returns the matches as a list with one entry
per level of the selected command chain. Each entry has the form
`{name, <|id -> value, ...|>}`. A parse error comes back as
`Failure["ClapError", message]`.

This project models that bridge as pure functions over immutable data.

- `Wrappers` holds the outcome type. `Outcome` has three cases: `Ok`, `Err`
  for the `Result::Err` a Rust function returns, and `Panic(fault)` for a
  Rust `panic!`, `expect` or `unwrap` that aborts. Each fault gets its own
  variant, so an abort never looks like an error.
- `Exprs` models Wolfram expressions (strings, integers, symbols, normal
  expressions) and the head checks `try_normal`, `try_normal_with_head` and
  `try_normal_array_with_head`.
- `Spec` holds the decoded schema types: `ClapCommand`, `ClapArg`,
  `ClapCommandSettings`, `FlagSetting` and clap's `ArgAction`.
- `FromExpr` holds the decoders `ClapCommand::from_expr` and
  `ClapArg::from_expr`. It also has an encoder back to expressions, which
  states the decoders' round trip.
- `Clap` models the part of clap the bridge uses: unbuilt `Arg` and `Command`
  values, `ArgMatches`, and the typed getters `get_one`, `get_many`,
  `get_flag` and `get_count`.
- `ToClap` holds the builders `ClapArg::to_clap` and `ClapCommand::to_clap`.
- `Metadata` holds `extract_arg_metadata`: the map from each command path
  to the ids and actions of that command's arguments.
- `Serialize` holds `arg_matches_to_expr` and the subcommand loop of
  `clap_parse`. The loop is a method with a loop invariant, and it also has
  a recursive reference definition. `Serialize` also holds the whole
  `clap_parse` pipeline, with clap's parser taken as a parameter.
- `Paclet` holds `PacletName::from_str` from the command-line tool, and
  the `publisher__base` → `base` rename that `paclet new
  --shorten-to-base-name` performs.

Where the code differs from what its documentation suggests, the model
follows the code:

- A `"Short" -> "abc"` flag keeps only the first character; the rest is
  dropped without a warning.
- An empty `"Short" -> ""` aborts.
- Malformed values inside a well-shaped schema abort rather than return an
  error. These are:
  - a non-string name or action
  - an unknown action
  - an unknown flag key or setting
  - a non-boolean setting
  - a flag value that is neither a string nor `Automatic`
- The doc comment on `ClapArg::flag_spec` (crates/clap-link/src/lib.rs:30-37)
  lists shorthands that the decoder does not accept. A bare `Automatic`,
  `"Long"` or `"Long" -> value` in third position is not a list of rules,
  so it is a decode error. A bare `"Long"` inside the list is not a rule,
  so it is a decode error too.
- Decoding is not bounded in depth: subcommands nest as deep as the
  expression does.
- A `Count` value is clap's `u8`. Here it is an unbounded `nat`.

## Model

| member | source | states |
|---|---|---|
| Exprs.TryNormal | crates/clap-link/src/from_expr.rs:215-218 | succeeds exactly on normal expressions and returns them unchanged; otherwise an error naming the expression, never an abort |
| Exprs.TryNormalWithHead | crates/clap-link/src/from_expr.rs:220-235 | succeeds exactly when the expression is normal with the expected head, giving its elements; otherwise the error names the expected and the actual head |
| Exprs.TryNormalArrayWithHead | crates/clap-link/src/from_expr.rs:237-250 | succeeds exactly when the head matches and the element count is the expected length; a wrong count is an error carrying both lengths; a wrong head is the head check's own error |
| FromExpr.ActionTableRoundTrip | crates/clap-link/src/from_expr.rs:136-147 | the five accepted action names and clap's actions correspond one to one; `Help` and `Version` have no accepted name |
| FromExpr.ActionTableInjective | crates/clap-link/src/from_expr.rs:136-147 | an accepted action string is exactly the name of the action it decodes to |
| FromExpr.DecodeAction | crates/clap-link/src/from_expr.rs:131-149 | a non-string action aborts; an unknown name aborts with that name; otherwise the action whose name the string is |
| FromExpr.FlagValue | crates/clap-link/src/from_expr.rs:167-173 | `Automatic` reads as automatic, a string as that explicit string, and anything else aborts; never an error |
| FromExpr.DecodeFlagRule | crates/clap-link/src/from_expr.rs:161-195 | a non-rule is the `Rule` pair check's error; a value that is neither a string nor `Automatic` aborts before the key is looked at; `"Short" -> s` with non-empty `s` sets the short flag to the first character of `s`, and aborts on the empty string; `"Short" -> Automatic` sets it to automatic; `"Long" -> v` sets the long flag to the value read from `v`; keys other than `Short`/`Long` abort |
| FromExpr.FoldFlagRules | crates/clap-link/src/from_expr.rs:158-198 | the loop succeeds exactly when every rule decodes; otherwise its result is the failure of the first rule that does not, every earlier rule having decoded |
| FromExpr.FoldFlagRulesLastWins | crates/clap-link/src/from_expr.rs:158-198 | the flag list decodes iff every rule does, and then each flag form is the one set by the last rule for that key, starting from "no flag" |
| FromExpr.UnmentionedKeyUntouched | crates/clap-link/src/from_expr.rs:158-198 | a key that no rule names keeps its initial "no flag" setting |
| FromExpr.DecodeFlagSpec | crates/clap-link/src/from_expr.rs:151-201 | anything but a `List` is the head check's error (not a list, or the wrong head); a `List` gives exactly the rule loop over its elements, started from (no short, no long) |
| FromExpr.ShortKeepsFirstChar | crates/clap-link/src/from_expr.rs:176-186 | `ClapArg[n, a, {"Short" -> s}]` with a non-empty `s` decodes to the short flag of the first character of `s`, the rest dropped, and no long flag |
| FromExpr.DecodeArg | crates/clap-link/src/from_expr.rs:110-208 | wrong head is an error; 0 or more than 3 elements is the arity error; a non-string name aborts; past those checks it succeeds exactly when the action (if present) and then the flag list (if present) decode, and otherwise the first failing part's abort or error is the result; on success the name, an action iff there are two or more elements, and a flag spec iff there are three |
| FromExpr.LongThenShortDecodes | crates/clap-link/src/from_expr.rs:158-198 | `ClapArg["verbose", "SetTrue", {"Long" -> Automatic, "Short" -> "v"}]` decodes to short flag `v` and an automatic long flag: rule order does not matter |
| FromExpr.DecodeArgList | crates/clap-link/src/from_expr.rs:41-49 | anything but a `List` is the head check's error (not a list, or the wrong head); a `List` decodes exactly as its elements do, one argument each |
| FromExpr.DecodeArgs | crates/clap-link/src/from_expr.rs:46-49 | all arguments decode, in order, or the result is the first failing argument's failure |
| FromExpr.DecodeSettingRule | crates/clap-link/src/from_expr.rs:80-94 | a non-rule is the `Rule` pair check's error; `ArgRequiredElseHelp -> True/False` gives that boolean; an unknown name aborts, and so does a non-boolean value for the known name |
| FromExpr.FoldSettings | crates/clap-link/src/from_expr.rs:79-94 | the loop succeeds exactly when every rule is a valid setting, and then the value is the last rule's boolean (the start value when there are none); otherwise the first invalid rule's failure |
| FromExpr.DecodeSettings | crates/clap-link/src/from_expr.rs:68-99 | settings must be an `Association` (else the head error) of `ArgRequiredElseHelp -> True/False` rules; otherwise the failure is the settings loop's, so an unknown name or a non-boolean value aborts; the last rule wins; no rules leave the setting unset |
| FromExpr.DecodeCommand | crates/clap-link/src/from_expr.rs:13-107 | wrong head is an error; fewer than 2 or more than 4 elements is the arity error with the count; a non-string name aborts; past those checks it succeeds exactly when the argument list, then the subcommand list (a `List` whose elements all decode) and then the settings decode, and otherwise the first failing part's abort or error is the result; on success args are the decoded `List`, subcommands are present iff there are 3 or more elements (each decoded in order) and settings are present iff there are 4 |
| FromExpr.UnknownSettingAborts | crates/clap-link/src/from_expr.rs:86-93 | a command `"app"` with no arguments, no subcommands and the settings association `"Foo" -> True` aborts with the unknown-setting fault rather than returning an error |
| FromExpr.DecodeCommands | crates/clap-link/src/from_expr.rs:51-66 | every subcommand decodes, in order, or the result is the failure of the first subcommand that does not decode, all earlier ones having decoded |
| FromExpr.DecodeEncodeFlagSpec | crates/clap-link/src/from_expr.rs:151-201 | every flag spec is recovered by decoding its canonical encoding |
| FromExpr.DecodeEncodeArg | crates/clap-link/src/from_expr.rs:110-208 | every argument whose action has a name (and that has an action when it has flags) is recovered by decoding its encoding |
| FromExpr.DecodeEncodeSettings | crates/clap-link/src/from_expr.rs:68-99 | settings are recovered by decoding their encoding |
| FromExpr.DecodeEncodeCommand | crates/clap-link/src/from_expr.rs:13-107 | every encodable command tree is recovered by decoding its encoding |
| FromExpr.DecodeEncodeCommands | crates/clap-link/src/from_expr.rs:51-66 | a list of encodable commands is recovered element by element |
| FromExpr.DecodedIsEncodable | crates/clap-link/src/from_expr.rs:13-107 | everything the decoder accepts lies in the encoder's domain, so decode and encode are inverse on decoded trees |
| Clap.GetAction | crates/clap-link/src/lib.rs:276-282 | the action read for metadata is the argument's own action, or `Set` when none was given |
| Clap.GetOne | crates/clap-link/src/lib.rs:225-228 | a `Set` value is the first stored string, none when nothing is stored; a non-string value aborts |
| Clap.GetMany | crates/clap-link/src/lib.rs:229-232 | an `Append` value is every stored string in order, none when nothing is stored |
| Clap.GetFlag | crates/clap-link/src/lib.rs:233-235 | a flag value is the stored boolean; a missing or mistyped value aborts |
| Clap.GetCount | crates/clap-link/src/lib.rs:236 | a count value is the stored occurrence count; a missing or mistyped value aborts |
| ToClap.ShortFlag | crates/clap-link/src/lib.rs:101-112 | never an error; an explicit character is that flag, a disabled one is none, an automatic one is the first character of the name, and it aborts exactly for an automatic flag on an empty name |
| ToClap.LongFlag | crates/clap-link/src/lib.rs:114-118 | an explicit name is that flag, a disabled one is none, an automatic one is the whole argument name |
| ToClap.ArgToClap | crates/clap-link/src/lib.rs:87-122 | the id and action are kept; each flag form is the explicit value, absent, or derived from the name (first character, whole name); building aborts exactly on an automatic short flag with an empty name |
| ToClap.AutomaticIsFirstCharAndName | crates/clap-link/src/lib.rs:104-117 | an automatic short flag builds the same argument as the explicit first character; an automatic long flag builds the same as the explicit name |
| ToClap.NoFlagSpecIsPositional | crates/clap-link/src/lib.rs:94-100 | without a flag spec, or with both forms disabled, the argument has neither a short nor a long flag |
| ToClap.ArgsToClap | crates/clap-link/src/lib.rs:59 | all arguments build, in order, unless one of them aborts |
| ToClap.CommandToClap | crates/clap-link/src/lib.rs:51-83 | builds iff no argument in the tree aborts; name, argument order and subcommand order are kept; `arg_required_else_help` is on exactly when the settings set it to true |
| ToClap.CommandsToClap | crates/clap-link/src/lib.rs:61-66 | every subcommand builds, in order, or the build aborts |
| ToClap.AbsentSubcommandsAreEmpty | crates/clap-link/src/lib.rs:61-66 | no subcommand list builds the same command as an empty one |
| ToClap.EmptySettingsChangeNothing | crates/clap-link/src/lib.rs:72-80 | settings with no value build the same command as no settings |
| Metadata.ExtractArgMetadata | crates/clap-link/src/lib.rs:265-294 | the map has an entry for exactly the paths of the command tree (root name first); the root's path holds the root's own arguments; when sibling names are distinct, the entry at every path lists the ids and actions of the arguments of the command that path leads to, in declaration order |
| Metadata.BuildKeys | crates/clap-link/src/lib.rs:268-289 | one walk adds to the map exactly the paths of the walked subtree under the parent's path, keeping every other key |
| Metadata.BuildFrame | crates/clap-link/src/lib.rs:268-289 | a key outside the walked subtree keeps its value |
| Metadata.BuildRecords | crates/clap-link/src/lib.rs:268-289 | with distinct sibling names, after one walk every path of the subtree under the parent's path holds the arguments of the node it leads to, whatever the map held before |
| Metadata.BuildAllRecords | crates/clap-link/src/lib.rs:286-288 | the loop over the subcommands records every subcommand's subtree; a later sibling never overwrites an earlier one |
| Metadata.RecordsChild | crates/clap-link/src/lib.rs:286-288 | the entries recorded for a command include those of each subcommand under the extended path |
| Serialize.ArgValueExpr | crates/clap-link/src/lib.rs:224-241 | by action: `Set` gives the first string or `Missing[]`; `Append` gives the list of all strings or `Missing[]`; flags give `True`/`False`; `Count` gives the integer; `Help`/`Version` abort; a value of the wrong shape aborts |
| Serialize.ReadBackRecoversStored | crates/clap-link/src/lib.rs:224-236 | reading a serialized value back gives exactly what the parse stored for `Append`, flags and counts; for `Set`, the first string |
| Serialize.ArgRules | crates/clap-link/src/lib.rs:219-244 | one `id -> value` rule per metadata entry, in metadata order, or the first entry's abort |
| Serialize.ArgMatchesToExpr | crates/clap-link/src/lib.rs:211-250 | the entry is `{name, <|rules|>}` and succeeds exactly when every recorded argument's value has the shape its action reads |
| Serialize.SerializeChain | crates/clap-link/src/lib.rs:184-208 | succeeds exactly when every level's path is recorded and its matches fit that entry; then there is one entry per level of the selected chain, root first, and entry `k` is `arg_matches_to_expr` of level `k`'s name, the metadata stored under level `k`'s path and level `k`'s own matches; the first level whose path is missing aborts with that path (the map index panic), and this happens only when the chain leaves the recorded paths; otherwise the first level whose matches do not fit gives that level's `arg_matches_to_expr` abort |
| Serialize.LevelsCons | crates/clap-link/src/lib.rs:195-206 | one step of the loop: this level's entry followed by the selected subcommand's entries are the entries of the whole chain, level by level |
| Serialize.CollectCommandMatches | crates/clap-link/src/lib.rs:184-208 | the imperative loop produces exactly the recursive chain serialization, aborts included |
| Serialize.ChainLookupsNeverMiss | crates/clap-link/src/lib.rs:186-203 | when every selected subcommand belongs to the command above, every metadata lookup of the loop finds its path |
| Serialize.SerializeConformingChain | crates/clap-link/src/lib.rs:184-208 | with distinct sibling names and matches that fit the tree, the chain serializes without aborting |
| Serialize.ClapParse | crates/clap-link/src/lib.rs:159-208 | a decode error aborts (`unwrap`); an abort inside the decoder or the builder is passed on unchanged; a parse error becomes `Failure["ClapError", message]`; otherwise the result is Ok exactly when the selected chain fits the extracted metadata, any other result being the chain serializer's abort unchanged, and the Ok result is a `List` with one entry per selected level, root first, entry `k` being `arg_matches_to_expr` of level `k` with the metadata extracted from the built command under level `k`'s path |
| Serialize.ParseErrorIsFailure | crates/clap-link/src/lib.rs:170-178 | whenever the schema decodes and builds and clap rejects the arguments, the result is exactly the failure carrying clap's message |
| Serialize.ClapParseSucceeds | crates/clap-link/src/lib.rs:159-208 | a decodable, buildable schema with distinct sibling names, parsed into matches that fit it, yields a list with one entry per selected level, and entry `k` serializes level `k`'s matches against the arguments of the command node that level selects |
| Serialize.LevelPathInPaths | crates/clap-link/src/lib.rs:186-203 | the path the loop looks up at each level of a conforming chain is a path of the command tree |
| Serialize.LevelRecorded | crates/clap-link/src/lib.rs:186-203 | with distinct sibling names, the metadata the loop finds at each level of a conforming chain is the argument list of the node that level selects |
| Paclet.SplitShape | src/main.rs:189 | splitting on `/` yields one more piece than there are slashes, and no piece contains a slash |
| Paclet.JoinSplit | src/main.rs:189 | joining the pieces with `/` gives back the name |
| Paclet.SplitJoin | src/main.rs:189 | pieces without slashes are recovered by splitting their join |
| Paclet.FromStr | src/main.rs:188-202 | accepted iff the name has at most one slash; a slash-free name is a plain name unchanged; otherwise publisher and base have no slash and rejoin to the name; more slashes are an error carrying the name |
| Paclet.FromStrInverse | src/main.rs:191-196 | a slash-free publisher and base joined by `/` parse back to exactly that resource name, and a slash-free name to itself |
| Paclet.ShortenNames | src/main.rs:162-169 | a name with more than one slash aborts even when not shortening; a rename happens iff shortening a resource name, from `publisher__base` (the name with `/` replaced by `__`) to the base |
| Paclet.ShortenResource | src/main.rs:162-169 | for `publisher/base` the rename is `publisher__base` to `base`, and nothing without the flag |

## Left out

- clap's own parsing (`try_get_matches_from`) is a function parameter of `ClapParse`; its matches are taken as given, and `ConformsTo` states what clap guarantees about them.
- The LibraryLink plumbing of `clap_parse` (crates/clap-link/src/lib.rs:129-157): the argument-count assertion and the unpacking of the argument vector into strings.
- Error and panic messages are structured variants instead of formatted text; the display of expressions is not modelled.
- clap's build-time debug assertions (duplicate ids, flags or subcommand names) are not modelled. The metadata lemmas instead assume distinct sibling names, as clap enforces.
- clap actions other than the seven listed, and clap's non-exhaustive `other` branch (crates/clap-link/src/lib.rs:240), are not modelled; clap has no further actions the decoder can produce.
- Clap.GetCount: clap stores the count as `u8`; here it is unbounded, because the decoder cannot change it and no arithmetic depends on it.
- `main`, the paclet subcommands' kernel session and the directory rename itself (src/main.rs) are I/O; only the names the rename uses are modelled.
- crates/wolfram-cli/src/kernel.rs, crates/wolfram-cli/src/config.rs and src/print_all_help.rs are not part of this model.

=== FILE: clap.dfy ===
/** The part of the clap library the bridge touches, as plain data: a
    command tree before it is built, and the matches a parse produces.  How
    clap parses an argument vector is not modelled; the matches are taken as
    given. */
module Clap {
  import opened Wrappers
  import opened Spec

  /** `clap::Arg`: its id, the action if one was set, and its flag forms. */
  datatype Arg = Arg(id: string, action: Option<ArgAction>, short: Option<char>, long: Option<string>)

  /** `clap::Arg::new(id)`: no action, no short and no long flag. */
  function NewArg(id: string): Arg {
    Arg(id, None, None, None)
  }

  /** `clap::Arg::get_action`: an argument without an explicit action reads
      as `Set`. */
  function GetAction(a: Arg): (r: ArgAction)
    ensures a.action.Some? ==> r == a.action.value
    ensures a.action.None? ==> r == Set
  {
    match a.action
    case Some(action) => action
    case None => Set
  }

  /** `clap::Command`: name, arguments and subcommands in declaration order,
      and whether `arg_required_else_help` is on. */
  datatype Command = Command(name: string, args: seq<Arg>, subcommands: seq<Command>, argRequiredElseHelp: bool)

  function NewCommand(name: string): Command {
    Command(name, [], [], false)
  }

  /** What a parse stored for one argument id: its string values in
      occurrence order, a boolean flag, or an occurrence count. */
  datatype ArgValue = Strings(values: seq<string>) | Flag(flag: bool) | Occurrences(count: nat)

  /** `clap::ArgMatches`: the stored values per id, and the one selected
      subcommand with its own matches, if any. */
  datatype ArgMatches = ArgMatches(values: map<string, ArgValue>, subcommand: SubcommandMatch)

  datatype SubcommandMatch = NoSubcommand | Subcommand(name: string, matches: ArgMatches)

  /** The result of `try_get_matches_from`: matches, or the rendered error. */
  datatype ParseResult = Parsed(matches: ArgMatches) | ParseError(message: string)

  /** `get_one::<String>`: the first stored string, `None` when nothing is
      stored; asking for a string of an id holding another type aborts. */
  function GetOne(m: ArgMatches, id: string): (r: Outcome<Option<string>, ()>)
    ensures !r.Err?
    ensures r.Ok? <==> id !in m.values || m.values[id].Strings?
    ensures r.Ok? && r.value.Some? ==> id in m.values && |m.values[id].values| > 0
                                       && r.value.value == m.values[id].values[0]
    ensures r.Ok? && r.value.None? ==> id !in m.values || m.values[id].values == []
  {
    if id !in m.values then Ok(None)
    else match m.values[id]
      case Strings(vs) => if |vs| == 0 then Ok(None) else Ok(Some(vs[0]))
      case _ => Panic(MatchTypeMismatch)
  }

  /** `get_many::<String>`: all stored strings in occurrence order. */
  function GetMany(m: ArgMatches, id: string): (r: Outcome<Option<seq<string>>, ()>)
    ensures !r.Err?
    ensures r.Ok? <==> id !in m.values || m.values[id].Strings?
    ensures r.Ok? ==> (r.value.Some? <==> id in m.values)
    ensures r.Ok? && r.value.Some? ==> r.value.value == m.values[id].values
  {
    if id !in m.values then Ok(None)
    else match m.values[id]
      case Strings(vs) => Ok(Some(vs))
      case _ => Panic(MatchTypeMismatch)
  }

  /** `get_flag`: the stored boolean.  clap stores a default for every
      `SetTrue`/`SetFalse` argument, so a missing value aborts. */
  function GetFlag(m: ArgMatches, id: string): (r: Outcome<bool, ()>)
    ensures !r.Err?
    ensures r.Ok? <==> id in m.values && m.values[id].Flag?
    ensures r.Ok? ==> r.value == m.values[id].flag
    ensures id !in m.values ==> r == Panic(NotDefaulted)
  {
    if id !in m.values then Panic(NotDefaulted)
    else match m.values[id]
      case Flag(b) => Ok(b)
      case _ => Panic(MatchTypeMismatch)
  }

  /** `get_count`: the stored occurrence count (defaulted like `get_flag`). */
  function GetCount(m: ArgMatches, id: string): (r: Outcome<nat, ()>)
    ensures !r.Err?
    ensures r.Ok? <==> id in m.values && m.values[id].Occurrences?
    ensures r.Ok? ==> r.value == m.values[id].count
    ensures id !in m.values ==> r == Panic(NotDefaulted)
  {
    if id !in m.values then Panic(NotDefaulted)
    else match m.values[id]
      case Occurrences(n) => Ok(n)
      case _ => Panic(MatchTypeMismatch)
  }

  /** Number of subcommands selected below these matches. */
  function Depth(m: ArgMatches): nat
    decreases m
  {
    match m.subcommand
    case NoSubcommand => 0
    case Subcommand(_, sm) => 1 + Depth(sm)
  }

  /** The matches of the `k`-th level of the selected chain, `m` itself
      being level 0. */
  function MatchesAt(m: ArgMatches, k: nat): (r: ArgMatches)
    requires k <= Depth(m)
    ensures Depth(r) == Depth(m) - k
    decreases k
  {
    if k == 0 then m else MatchesAt(m.subcommand.matches, k - 1)
  }

  /** Names of the selected subcommands, outermost first. */
  function ChainNames(m: ArgMatches): (names: seq<string>)
    ensures |names| == Depth(m)
    decreases m
  {
    match m.subcommand
    case NoSubcommand => []
    case Subcommand(n, sm) => [n] + ChainNames(sm)
  }
}

=== FILE: exprs.dfy ===
/** Wolfram symbolic expressions, as far as the clap bridge looks at them,
    and the shape-checking utilities of the decoder (`try_normal`,
    `try_normal_with_head`, `try_normal_array_with_head`). */
module Exprs {
  import opened Wrappers

  /** A string, an integer, a symbol, or a normal expression `head[elems...]`. */
  datatype Expr =
    | Str(s: string)
    | Int(i: int)
    | Sym(name: string)
    | Normal(head: Expr, elems: seq<Expr>)

  const ClapCommandHead: string := "ConnorGray`ClapLink`ClapCommand"
  const ClapArgHead: string := "ConnorGray`ClapLink`ClapArg"
  const ListHead: string := "System`List"
  const AssociationHead: string := "System`Association"
  const RuleHead: string := "System`Rule"
  const AutomaticSym: string := "System`Automatic"
  const TrueSym: string := "System`True"
  const FalseSym: string := "System`False"
  const MissingHead: string := "System`Missing"
  const FailureHead: string := "System`Failure"

  /** The recoverable decode errors: every `Err` the decoder can return. */
  datatype DecodeError =
    | NotNormal(got: Expr)
    | WrongHead(expectedHead: string, gotHead: Expr)
    | WrongLength(expectedLength: nat, gotLength: nat)
    | CommandArity(count: nat)   // "ClapCommand has wrong number of arguments: {count}."
    | ArgArity                   // "ClapArg has wrong number of arguments"

  function List(es: seq<Expr>): Expr {
    Normal(Sym(ListHead), es)
  }

  function Rule(lhs: Expr, rhs: Expr): Expr {
    Normal(Sym(RuleHead), [lhs, rhs])
  }

  function Association(rules: seq<Expr>): Expr {
    Normal(Sym(AssociationHead), rules)
  }

  function Bool(b: bool): Expr {
    Sym(if b then TrueSym else FalseSym)
  }

  function Missing(): Expr {
    Normal(Sym(MissingHead), [])
  }

  function TryAsStr(e: Expr): (r: Option<string>)
    ensures r.Some? <==> e.Str?
    ensures r.Some? ==> e == Str(r.value)
  {
    if e.Str? then Some(e.s) else None
  }

  /** Only the symbols `True` and `False` read as booleans. */
  function TryAsBool(e: Expr): (r: Option<bool>)
    ensures r.Some? <==> (e == Sym(TrueSym) || e == Sym(FalseSym))
    ensures r.Some? ==> e == Bool(r.value)
  {
    if e == Sym(TrueSym) then Some(true)
    else if e == Sym(FalseSym) then Some(false)
    else None
  }

  function TryNormal(e: Expr): (r: Outcome<Expr, DecodeError>)
    ensures !r.Panic?
    ensures r.Ok? <==> e.Normal?
    ensures r.Ok? ==> r.value == e
    ensures r.Err? ==> r.error == NotNormal(e)
  {
    if e.Normal? then Ok(e) else Err(NotNormal(e))
  }

  /** The elements of `e`, provided `e` is a normal expression whose head is
      exactly the symbol `head`; an error otherwise, never an abort. */
  function TryNormalWithHead(e: Expr, head: string): (r: Outcome<seq<Expr>, DecodeError>)
    ensures !r.Panic?
    ensures r.Ok? <==> (e.Normal? && e.head == Sym(head))
    ensures r.Ok? ==> r.value == e.elems
    ensures r.Err? && !e.Normal? ==> r.error == NotNormal(e)
    ensures r.Err? && e.Normal? ==> r.error == WrongHead(head, e.head)
  {
    var normal :- TryNormal(e);
    if normal.head == Sym(head) then Ok(normal.elems)
    else Err(WrongHead(head, normal.head))
  }

  /** As `TryNormalWithHead`, and additionally the element count must be `n`. */
  function TryNormalArrayWithHead(e: Expr, head: string, n: nat): (r: Outcome<seq<Expr>, DecodeError>)
    ensures !r.Panic?
    ensures r.Ok? <==> (e.Normal? && e.head == Sym(head) && |e.elems| == n)
    ensures r.Ok? ==> r.value == e.elems && |r.value| == n
    ensures e.Normal? && e.head == Sym(head) && |e.elems| != n ==>
              r == Err(WrongLength(n, |e.elems|))
    ensures !(e.Normal? && e.head == Sym(head)) ==> r == TryNormalWithHead(e, head).PropagateFailure()
  {
    var elements :- TryNormalWithHead(e, head);
    if |elements| == n then Ok(elements)
    else Err(WrongLength(n, |elements|))
  }
}

=== FILE: from_expr.dfy ===
/** The decoder: `FromExpr` for `ClapCommand` and `ClapArg`.

    A command node is `ClapCommand[name, {args...}]`, optionally followed by
    `{subcommands...}` and then `<|settings|>`; an argument node is
    `ClapArg[name]`, optionally followed by an action name and then a list of
    flag rules.  Structural mismatches are `Err`; the checks the source makes
    with `expect` or `panic!` are `Panic`. */
module FromExpr {
  import opened Wrappers
  import opened Exprs
  import opened Spec

  //======================================
  // Actions
  //======================================

  /** The action-name table. */
  function ActionFromName(s: string): Option<ArgAction> {
    if s == "Set" then Some(Set)
    else if s == "Append" then Some(Append)
    else if s == "SetTrue" then Some(SetTrue)
    else if s == "SetFalse" then Some(SetFalse)
    else if s == "Count" then Some(Count)
    else None
  }

  /** The name under which an action is written (clap's variant name). */
  function ActionName(a: ArgAction): string {
    match a
    case Set => "Set"
    case Append => "Append"
    case SetTrue => "SetTrue"
    case SetFalse => "SetFalse"
    case Count => "Count"
    case Help => "Help"
    case Version => "Version"
  }

  /** The actions a schema may name. */
  predicate Decodable(a: ArgAction) {
    !a.Help? && !a.Version?
  }

  /** Reading back the name of an action gives that action exactly when the
      schema may name it. */
  lemma ActionTableRoundTrip(a: ArgAction)
    ensures ActionFromName(ActionName(a)) == (if Decodable(a) then Some(a) else None)
  {
  }

  /** Every name the table accepts is the name of the action it yields. */
  lemma ActionTableInjective(s: string)
    ensures ActionFromName(s).Some? ==>
              Decodable(ActionFromName(s).value) && ActionName(ActionFromName(s).value) == s
  {
  }

  function DecodeAction(e: Expr): (r: Outcome<ArgAction, DecodeError>)
    ensures !r.Err?
    ensures r.Ok? <==> e.Str? && ActionFromName(e.s).Some?
    ensures r.Ok? ==> Decodable(r.value) && e == Str(ActionName(r.value))
    ensures !e.Str? ==> r == Panic(ActionNotString)
    ensures e.Str? && ActionFromName(e.s).None? ==> r == Panic(UnrecognizedAction(e.s))
  {
    match TryAsStr(e)
    case None => Panic(ActionNotString)
    case Some(name) =>
      match ActionFromName(name)
      case Some(a) => Ok(a)
      case None => Panic(UnrecognizedAction(name))
  }

  //======================================
  // Flag specification
  //======================================

  /** What one flag rule does to the `(short, long)` pair being built. */
  datatype FlagUpdate = ShortUpdate(short: FlagSetting<char>) | LongUpdate(long: FlagSetting<string>)

  predicate IsRulePair(e: Expr) {
    e.Normal? && e.head == Sym(RuleHead) && |e.elems| == 2
  }

  /** Right-hand side of a flag rule: `Automatic` or a string. */
  function FlagValue(rhs: Expr): (r: Outcome<FlagSetting<string>, DecodeError>)
    ensures !r.Err?
    ensures r.Ok? <==> rhs == Sym(AutomaticSym) || rhs.Str?
    ensures rhs == Sym(AutomaticSym) ==> r == Ok(Automatic)
    ensures rhs.Str? ==> r == Ok(Explicit(rhs.s))
    ensures !r.Ok? ==> r == Panic(FlagValueNotStringOrAutomatic)
  {
    if rhs == Sym(AutomaticSym) then Ok(Automatic)
    else match TryAsStr(rhs)
      case Some(s) => Ok(Explicit(s))
      case None => Panic(FlagValueNotStringOrAutomatic)
  }

  /** One `"Short" -> v` or `"Long" -> v` rule.  The value is inspected before
      the key, and a "Short" string keeps only its first character. */
  function DecodeFlagRule(spec: Expr): (r: Outcome<FlagUpdate, DecodeError>)
    ensures r.Err? <==> !IsRulePair(spec)
    ensures !IsRulePair(spec) ==> r == TryNormalArrayWithHead(spec, RuleHead, 2).PropagateFailure()
    ensures r.Ok? ==> IsRulePair(spec) && FlagValue(spec.elems[1]).Ok?
    ensures r.Ok? ==> (r.value.ShortUpdate? <==> spec.elems[0] == Str("Short"))
    ensures r.Ok? ==> (r.value.LongUpdate? <==> spec.elems[0] == Str("Long"))
    ensures r.Ok? && r.value.ShortUpdate? ==>
              (r.value.short == Automatic <==> spec.elems[1] == Sym(AutomaticSym))
              && (r.value.short.Explicit? ==>
                    spec.elems[1].Str? && |spec.elems[1].s| > 0
                    && r.value.short.value == spec.elems[1].s[0])
    ensures r.Ok? && r.value.LongUpdate? ==> Ok(r.value.long) == FlagValue(spec.elems[1])
    ensures r.Ok? && r.value.ShortUpdate? ==> !r.value.short.Disabled?
    ensures r.Ok? && r.value.LongUpdate? ==> !r.value.long.Disabled?
    ensures IsRulePair(spec) && spec.elems[1] == Str("") && spec.elems[0] == Str("Short") ==>
              r == Panic(EmptyShortFlag)
    ensures IsRulePair(spec) && FlagValue(spec.elems[1]).Ok?
            && spec.elems[0] != Str("Short") && spec.elems[0] != Str("Long") ==>
              r == Panic(UnknownFlagKey)
    ensures IsRulePair(spec) && !FlagValue(spec.elems[1]).Ok? ==> r == Panic(FlagValueNotStringOrAutomatic)
    ensures IsRulePair(spec) && spec.elems[0] == Str("Short")
            && spec.elems[1].Str? && |spec.elems[1].s| > 0 ==>
              r == Ok(ShortUpdate(Explicit(spec.elems[1].s[0])))
    ensures IsRulePair(spec) && spec.elems[0] == Str("Short") && spec.elems[1] == Sym(AutomaticSym) ==>
              r == Ok(ShortUpdate(Automatic))
    ensures IsRulePair(spec) && spec.elems[0] == Str("Long") && FlagValue(spec.elems[1]).Ok? ==>
              r == Ok(LongUpdate(FlagValue(spec.elems[1]).value))
  {
    var pair :- TryNormalArrayWithHead(spec, RuleHead, 2);
    var lhs := pair[0];
    var value :- FlagValue(pair[1]);
    match TryAsStr(lhs)
    case Some("Short") =>
      (match value
       case Explicit(s) => if |s| == 0 then Panic(EmptyShortFlag) else Ok(ShortUpdate(Explicit(s[0])))
       case Disabled => Ok(ShortUpdate(Disabled))
       case Automatic => Ok(ShortUpdate(Automatic)))
    case Some("Long") => Ok(LongUpdate(value))
    case _ => Panic(UnknownFlagKey)
  }

  /** The loop over the flag rules: each rule overwrites the setting of its
      own key; the first failing rule ends the loop. */
  function FoldFlagRules(specs: seq<Expr>, short: FlagSetting<char>, long: FlagSetting<string>)
    : (r: Outcome<(FlagSetting<char>, FlagSetting<string>), DecodeError>)
    ensures r.Ok? <==> AllDecode(specs)
    ensures !r.Ok? ==> exists i :: 0 <= i < |specs| && !DecodeFlagRule(specs[i]).Ok?
                                   && r == DecodeFlagRule(specs[i]).PropagateFailure()
                                   && forall j :: 0 <= j < i ==> DecodeFlagRule(specs[j]).Ok?
    decreases |specs|
  {
    if |specs| == 0 then Ok((short, long))
    else
      AllDecodeCons(specs);
      var u :- DecodeFlagRule(specs[0]);
      match u
      case ShortUpdate(s) => FoldFlagRules(specs[1..], s, long)
      case LongUpdate(l) => FoldFlagRules(specs[1..], short, l)
  }

  /** Reference reading of a sequence of updates: the short setting is the
      one of the LAST short update, or `dflt` when there is none. */
  function LastShort(us: seq<FlagUpdate>, dflt: FlagSetting<char>): FlagSetting<char> {
    if |us| == 0 then dflt
    else if us[|us| - 1].ShortUpdate? then us[|us| - 1].short
    else LastShort(us[..|us| - 1], dflt)
  }

  function LastLong(us: seq<FlagUpdate>, dflt: FlagSetting<string>): FlagSetting<string> {
    if |us| == 0 then dflt
    else if us[|us| - 1].LongUpdate? then us[|us| - 1].long
    else LastLong(us[..|us| - 1], dflt)
  }

  /** The updates of a sequence of rules that all decode. */
  function RuleUpdates(specs: seq<Expr>): (us: seq<FlagUpdate>)
    requires forall i :: 0 <= i < |specs| ==> DecodeFlagRule(specs[i]).Ok?
    ensures |us| == |specs|
    ensures forall i :: 0 <= i < |specs| ==> us[i] == DecodeFlagRule(specs[i]).value
  {
    seq(|specs|, i requires 0 <= i < |specs| => DecodeFlagRule(specs[i]).value)
  }

  lemma LastShortAppend(us: seq<FlagUpdate>, u: FlagUpdate, dflt: FlagSetting<char>)
    ensures LastShort([u] + us, dflt) == LastShort(us, if u.ShortUpdate? then u.short else dflt)
    decreases |us|
  {
    if |us| > 0 {
      assert ([u] + us)[..|us|] == [u] + us[..|us| - 1];
      LastShortAppend(us[..|us| - 1], u, dflt);
    }
  }

  lemma LastLongAppend(us: seq<FlagUpdate>, u: FlagUpdate, dflt: FlagSetting<string>)
    ensures LastLong([u] + us, dflt) == LastLong(us, if u.LongUpdate? then u.long else dflt)
    decreases |us|
  {
    if |us| > 0 {
      assert ([u] + us)[..|us|] == [u] + us[..|us| - 1];
      LastLongAppend(us[..|us| - 1], u, dflt);
    }
  }

  /** The flag-rule loop succeeds exactly when every rule decodes, and then
      each key holds the setting of its last rule (its starting value when no
      rule names it): a later rule overwrites an earlier one for the same key
      and leaves the other key alone. */
  lemma {:induction false} FoldFlagRulesLastWins(specs: seq<Expr>, short: FlagSetting<char>, long: FlagSetting<string>)
    ensures FoldFlagRules(specs, short, long).Ok? <==>
              forall i :: 0 <= i < |specs| ==> DecodeFlagRule(specs[i]).Ok?
    ensures FoldFlagRules(specs, short, long).Ok? ==>
              FoldFlagRules(specs, short, long).value
                == (LastShort(RuleUpdates(specs), short), LastLong(RuleUpdates(specs), long))
    decreases |specs|
  {
    if |specs| > 0 {
      var u := DecodeFlagRule(specs[0]);
      if u.Ok? {
        var s' := if u.value.ShortUpdate? then u.value.short else short;
        var l' := if u.value.LongUpdate? then u.value.long else long;
        FoldFlagRulesLastWins(specs[1..], s', l');
        AllDecodeCons(specs);
        if FoldFlagRules(specs, short, long).Ok? {
          RuleUpdatesCons(specs);
          LastShortAppend(RuleUpdates(specs[1..]), u.value, short);
          LastLongAppend(RuleUpdates(specs[1..]), u.value, long);
        }
      }
    }
  }

  predicate AllDecode(specs: seq<Expr>) {
    forall i :: 0 <= i < |specs| ==> DecodeFlagRule(specs[i]).Ok?
  }

  lemma AllDecodeCons(specs: seq<Expr>)
    requires |specs| > 0
    ensures AllDecode(specs) <==> DecodeFlagRule(specs[0]).Ok? && AllDecode(specs[1..])
  {
    assert forall i :: 0 <= i < |specs| - 1 ==> specs[1..][i] == specs[i + 1];
    if DecodeFlagRule(specs[0]).Ok? && AllDecode(specs[1..]) {
      forall i | 0 <= i < |specs|
        ensures DecodeFlagRule(specs[i]).Ok?
      {
        if i > 0 {
          assert specs[i] == specs[1..][i - 1];
        }
      }
    }
  }

  lemma RuleUpdatesCons(specs: seq<Expr>)
    requires |specs| > 0 && AllDecode(specs)
    ensures AllDecode(specs[1..])
    ensures RuleUpdates(specs) == [DecodeFlagRule(specs[0]).value] + RuleUpdates(specs[1..])
  {
    AllDecodeCons(specs);
    assert forall i :: 0 <= i < |specs| - 1 ==> specs[1..][i] == specs[i + 1];
  }

  /** Some rule of `specs` has the key `key`. */
  predicate Mentions(specs: seq<Expr>, key: string) {
    exists i :: 0 <= i < |specs| && IsRulePair(specs[i]) && specs[i].elems[0] == Str(key)
  }

  /** A key that no rule mentions keeps its starting value. */
  lemma {:induction false} UnmentionedKeyUntouched(specs: seq<Expr>, short: FlagSetting<char>, long: FlagSetting<string>)
    requires FoldFlagRules(specs, short, long).Ok?
    ensures !Mentions(specs, "Short") ==> FoldFlagRules(specs, short, long).value.0 == short
    ensures !Mentions(specs, "Long") ==> FoldFlagRules(specs, short, long).value.1 == long
    decreases |specs|
  {
    if |specs| > 0 {
      var u := DecodeFlagRule(specs[0]);
      var s' := if u.value.ShortUpdate? then u.value.short else short;
      var l' := if u.value.LongUpdate? then u.value.long else long;
      assert forall i :: 0 <= i < |specs| - 1 ==> specs[1..][i] == specs[i + 1];
      UnmentionedKeyUntouched(specs[1..], s', l');
    }
  }

  /** The third element of a `ClapArg`: a list of flag rules, both keys
      starting as `Disabled`. */
  function DecodeFlagSpec(e: Expr): (r: Outcome<(FlagSetting<char>, FlagSetting<string>), DecodeError>)
    ensures (!e.Normal? || e.head != Sym(ListHead)) ==> r == TryNormalWithHead(e, ListHead).PropagateFailure()
    ensures r.Ok? ==> e.Normal? && e.head == Sym(ListHead)
    ensures e.Normal? && e.head == Sym(ListHead) ==> r == FoldFlagRules(e.elems, Disabled, Disabled)
  {
    var specs :- TryNormalWithHead(e, ListHead);
    FoldFlagRules(specs, Disabled, Disabled)
  }

  //======================================
  // Arguments
  //======================================

  /** A `ClapArg` node of the right arity whose name is a string: from here
      on only the action and the flag list can fail. */
  predicate ArgShape(e: Expr) {
    e.Normal? && e.head == Sym(ClapArgHead) && 1 <= |e.elems| <= 3 && e.elems[0].Str?
  }

  /** `ClapArg[name]`, `ClapArg[name, action]` or `ClapArg[name, action, flags]`.
      The parts are decoded in order and the first failing part's failure,
      abort or error, is the node's. */
  function DecodeArg(e: Expr): (r: Outcome<ClapArg, DecodeError>)
    ensures (!e.Normal? || e.head != Sym(ClapArgHead)) ==>
              r == TryNormalWithHead(e, ClapArgHead).PropagateFailure()
    ensures e.Normal? && e.head == Sym(ClapArgHead) && !(1 <= |e.elems| <= 3) ==> r == Err(ArgArity)
    ensures e.Normal? && e.head == Sym(ClapArgHead) && 1 <= |e.elems| <= 3 && !e.elems[0].Str? ==>
              r == Panic(NameNotString)
    ensures r.Ok? ==>
              && e.Normal? && e.head == Sym(ClapArgHead) && 1 <= |e.elems| <= 3
              && e.elems[0] == Str(r.value.argName)
              && (r.value.action.Some? <==> |e.elems| >= 2)
              && (r.value.action.Some? ==> DecodeAction(e.elems[1]) == Ok(r.value.action.value))
              && (r.value.flagSpec.Some? <==> |e.elems| == 3)
              && (r.value.flagSpec.Some? ==> DecodeFlagSpec(e.elems[2]) == Ok(r.value.flagSpec.value))
    ensures ArgShape(e) ==>
              (r.Ok? <==> && (|e.elems| >= 2 ==> DecodeAction(e.elems[1]).Ok?)
                          && (|e.elems| == 3 ==> DecodeFlagSpec(e.elems[2]).Ok?))
    ensures ArgShape(e) && |e.elems| >= 2 && !DecodeAction(e.elems[1]).Ok? ==>
              r == DecodeAction(e.elems[1]).PropagateFailure()
    ensures ArgShape(e) && |e.elems| == 3 && DecodeAction(e.elems[1]).Ok? && !DecodeFlagSpec(e.elems[2]).Ok? ==>
              r == DecodeFlagSpec(e.elems[2]).PropagateFailure()
  {
    var elements :- TryNormalWithHead(e, ClapArgHead);
    if !(1 <= |elements| <= 3) then Err(ArgArity)
    else match TryAsStr(elements[0])
      case None => Panic(NameNotString)
      case Some(argName) =>
        var action :- if |elements| >= 2 then
                        var a :- DecodeAction(elements[1]); Ok(Some(a))
                      else Ok(None);
        var flagSpec :- if |elements| == 3 then
                          var f :- DecodeFlagSpec(elements[2]); Ok(Some(f))
                        else Ok(None);
        Ok(ClapArg(argName, action, flagSpec))
  }

  /** A `"Short"` string of any length gives the short flag of its first
      character; the remaining characters are dropped. */
  lemma ShortKeepsFirstChar(name: string, action: Expr, s: string)
    requires DecodeAction(action).Ok? && |s| >= 1
    ensures DecodeArg(Normal(Sym(ClapArgHead), [Str(name), action, List([Rule(Str("Short"), Str(s))])]))
            == Ok(ClapArg(name, Some(DecodeAction(action).value), Some((Explicit(s[0]), Disabled))))
  {
    var rules := [Rule(Str("Short"), Str(s))];
    assert FoldFlagRules(rules, Disabled, Disabled) == FoldFlagRules(rules[1..], Explicit(s[0]), Disabled);
  }

  /** Flag rules may come in any order: `{"Long" -> Automatic, "Short" -> "v"}`
      gives the short flag `v` and the automatic long flag. */
  lemma LongThenShortDecodes()
    ensures DecodeArg(Normal(Sym(ClapArgHead), [Str("verbose"), Str("SetTrue"),
                        List([Rule(Str("Long"), Sym(AutomaticSym)), Rule(Str("Short"), Str("v"))])]))
            == Ok(ClapArg("verbose", Some(SetTrue), Some((Explicit('v'), Automatic))))
  {
    var rules := [Rule(Str("Long"), Sym(AutomaticSym)), Rule(Str("Short"), Str("v"))];
    assert rules[1..][1..] == [];
    assert FoldFlagRules(rules, Disabled, Disabled) == FoldFlagRules(rules[1..], Disabled, Automatic);
    assert FoldFlagRules(rules[1..], Disabled, Automatic) == FoldFlagRules([], Explicit('v'), Automatic);
  }

  /** The `collect::<Result<Vec<_>, _>>()` over the argument list: all
      elements decode, or the first failure is the result. */
  function DecodeArgs(es: seq<Expr>): (r: Outcome<seq<ClapArg>, DecodeError>)
    ensures r.Ok? <==> forall i :: 0 <= i < |es| ==> DecodeArg(es[i]).Ok?
    ensures r.Ok? ==> |r.value| == |es|
                      && forall i :: 0 <= i < |es| ==> DecodeArg(es[i]) == Ok(r.value[i])
    ensures !r.Ok? ==> exists i :: 0 <= i < |es| && !DecodeArg(es[i]).Ok?
                                   && r == DecodeArg(es[i]).PropagateFailure()
                                   && forall j :: 0 <= j < i ==> DecodeArg(es[j]).Ok?
  {
    if |es| == 0 then Ok([])
    else
      var a :- DecodeArg(es[0]);
      var rest :- DecodeArgs(es[1..]);
      Ok([a] + rest)
  }

  //======================================
  // Settings
  //======================================

  /** `"ArgRequiredElseHelp" -> True` or `"ArgRequiredElseHelp" -> False`. */
  predicate IsSettingRule(e: Expr) {
    IsRulePair(e) && e.elems[0] == Str("ArgRequiredElseHelp") && TryAsBool(e.elems[1]).Some?
  }

  /** One settings rule: only `"ArgRequiredElseHelp" -> bool` is known. */
  function DecodeSettingRule(rule: Expr): (r: Outcome<bool, DecodeError>)
    ensures r.Ok? <==> IsSettingRule(rule)
    ensures r.Ok? ==> Some(r.value) == TryAsBool(rule.elems[1])
    ensures r.Err? <==> !IsRulePair(rule)
    ensures !IsRulePair(rule) ==> r == TryNormalArrayWithHead(rule, RuleHead, 2).PropagateFailure()
    ensures IsRulePair(rule) && rule.elems[0] != Str("ArgRequiredElseHelp") ==> r == Panic(UnknownSetting)
    ensures IsSettingName(rule) && TryAsBool(rule.elems[1]).None? ==> r == Panic(SettingNotBool)
  {
    var pair :- TryNormalArrayWithHead(rule, RuleHead, 2);
    if TryAsStr(pair[0]) == Some("ArgRequiredElseHelp") then
      match TryAsBool(pair[1])
      case None => Panic(SettingNotBool)
      case Some(b) => Ok(b)
    else Panic(UnknownSetting)
  }

  predicate IsSettingName(e: Expr) {
    IsRulePair(e) && e.elems[0] == Str("ArgRequiredElseHelp")
  }

  /** The loop over the settings association; the last rule wins and the
      first failing rule ends the loop. */
  function FoldSettings(rules: seq<Expr>, acc: Option<bool>): (r: Outcome<Option<bool>, DecodeError>)
    ensures r.Ok? <==> forall i :: 0 <= i < |rules| ==> IsSettingRule(rules[i])
    ensures r.Ok? && |rules| == 0 ==> r.value == acc
    ensures r.Ok? && |rules| > 0 ==> r.value == TryAsBool(rules[|rules| - 1].elems[1])
    ensures !r.Ok? ==> exists i :: 0 <= i < |rules| && !IsSettingRule(rules[i])
                                   && r == DecodeSettingRule(rules[i]).PropagateFailure()
                                   && forall j :: 0 <= j < i ==> IsSettingRule(rules[j])
  {
    if |rules| == 0 then Ok(acc)
    else
      var b :- DecodeSettingRule(rules[0]);
      FoldSettings(rules[1..], Some(b))
  }

  /** The fourth element of a `ClapCommand`: an association of settings. */
  function DecodeSettings(e: Expr): (r: Outcome<ClapCommandSettings, DecodeError>)
    ensures r.Ok? <==> e.Normal? && e.head == Sym(AssociationHead)
                       && forall i :: 0 <= i < |e.elems| ==> IsSettingRule(e.elems[i])
    ensures r.Ok? ==> (r.value.argRequiredElseHelp.None? <==> |e.elems| == 0)
    ensures r.Ok? && |e.elems| > 0 ==>
              r.value.argRequiredElseHelp == TryAsBool(e.elems[|e.elems| - 1].elems[1])
    ensures !(e.Normal? && e.head == Sym(AssociationHead)) ==>
              r == TryNormalWithHead(e, AssociationHead).PropagateFailure()
    ensures e.Normal? && e.head == Sym(AssociationHead) && !r.Ok? ==>
              r == FoldSettings(e.elems, None).PropagateFailure()
  {
    var rules :- TryNormalWithHead(e, AssociationHead);
    var v :- FoldSettings(rules, None);
    Ok(ClapCommandSettings(v))
  }

  //======================================
  // Commands
  //======================================

  /** `ClapCommand[name, args]`, `ClapCommand[name, args, subcommands]` or
      `ClapCommand[name, args, subcommands, settings]`.  The parts are
      decoded in order (arguments, subcommand list, settings) and the first
      failing part's failure, abort or error, is the command's. */
  function DecodeCommand(e: Expr): (r: Outcome<ClapCommand, DecodeError>)
    ensures (!e.Normal? || e.head != Sym(ClapCommandHead)) ==>
              r == TryNormalWithHead(e, ClapCommandHead).PropagateFailure()
    ensures e.Normal? && e.head == Sym(ClapCommandHead) && !(2 <= |e.elems| <= 4) ==>
              r == Err(CommandArity(|e.elems|))
    ensures e.Normal? && e.head == Sym(ClapCommandHead) && 2 <= |e.elems| <= 4 && !e.elems[0].Str? ==>
              r == Panic(NameNotString)
    ensures r.Ok? ==>
              && e.Normal? && e.head == Sym(ClapCommandHead) && 2 <= |e.elems| <= 4
              && e.elems[0] == Str(r.value.commandName)
              && DecodeArgList(e.elems[1]) == Ok(r.value.args)
              && (r.value.subcommands.Present? <==> |e.elems| >= 3)
              && (r.value.subcommands.Present? ==>
                    && e.elems[2].Normal? && e.elems[2].head == Sym(ListHead)
                    && |r.value.subcommands.commands| == |e.elems[2].elems|
                    && forall i :: 0 <= i < |e.elems[2].elems| ==>
                         DecodeCommand(e.elems[2].elems[i]) == Ok(r.value.subcommands.commands[i]))
              && (r.value.settings.Some? <==> |e.elems| == 4)
              && (r.value.settings.Some? ==> DecodeSettings(e.elems[3]) == Ok(r.value.settings.value))
    ensures CommandShape(e) ==>
              (r.Ok? <==> && DecodeArgList(e.elems[1]).Ok?
                          && (|e.elems| >= 3 ==> SubcommandsDecode(e.elems[2]))
                          && (|e.elems| == 4 ==> DecodeSettings(e.elems[3]).Ok?))
    ensures CommandShape(e) && !DecodeArgList(e.elems[1]).Ok? ==>
              r == DecodeArgList(e.elems[1]).PropagateFailure()
    ensures CommandShape(e) && DecodeArgList(e.elems[1]).Ok? && |e.elems| >= 3
            && !(e.elems[2].Normal? && e.elems[2].head == Sym(ListHead)) ==>
              r == TryNormalWithHead(e.elems[2], ListHead).PropagateFailure()
    ensures CommandShape(e) && DecodeArgList(e.elems[1]).Ok? && |e.elems| >= 3
            && e.elems[2].Normal? && e.elems[2].head == Sym(ListHead)
            && !DecodeCommands(e.elems[2].elems).Ok? ==>
              r == DecodeCommands(e.elems[2].elems).PropagateFailure()
    ensures CommandShape(e) && DecodeArgList(e.elems[1]).Ok? && |e.elems| == 4
            && SubcommandsDecode(e.elems[2]) && !DecodeSettings(e.elems[3]).Ok? ==>
              r == DecodeSettings(e.elems[3]).PropagateFailure()
    decreases e
  {
    var elements :- TryNormalWithHead(e, ClapCommandHead);
    if !(2 <= |elements| <= 4) then Err(CommandArity(|elements|))
    else match TryAsStr(elements[0])
      case None => Panic(NameNotString)
      case Some(commandName) =>
        var args :- DecodeArgList(elements[1]);
        var subcommands :- if |elements| >= 3 then
                             var list :- TryNormalWithHead(elements[2], ListHead);
                             var subs :- DecodeCommands(list);
                             Ok(Present(subs))
                           else Ok(Absent);
        var settings :- if |elements| == 4 then
                          var s :- DecodeSettings(elements[3]); Ok(Some(s))
                        else Ok(None);
        Ok(ClapCommand(commandName, args, subcommands, settings))
  }

  /** An unknown setting name inside an otherwise well-formed command
      aborts the decoder rather than returning an error. */
  lemma UnknownSettingAborts()
    ensures DecodeCommand(Normal(Sym(ClapCommandHead), [Str("app"), List([]), List([]),
                            Association([Rule(Str("Foo"), Bool(true))])]))
            == Panic(UnknownSetting)
  {
    var settings := Association([Rule(Str("Foo"), Bool(true))]);
    assert DecodeSettings(settings) == Panic(UnknownSetting) by {
      assert DecodeSettingRule(Rule(Str("Foo"), Bool(true))) == Panic(UnknownSetting);
    }
  }

  /** A `ClapCommand` node of the right arity whose name is a string: from
      here on only the arguments, subcommands and settings can fail. */
  predicate CommandShape(e: Expr) {
    e.Normal? && e.head == Sym(ClapCommandHead) && 2 <= |e.elems| <= 4 && e.elems[0].Str?
  }

  /** The third element of a `ClapCommand` is a `List` whose every element
      decodes. */
  predicate SubcommandsDecode(e: Expr)
    decreases e, 1
  {
    e.Normal? && e.head == Sym(ListHead) && DecodeCommands(e.elems).Ok?
  }

  /** The second element of a `ClapCommand`: a list of `ClapArg` nodes. */
  function DecodeArgList(e: Expr): (r: Outcome<seq<ClapArg>, DecodeError>)
    ensures (!e.Normal? || e.head != Sym(ListHead)) ==> r == TryNormalWithHead(e, ListHead).PropagateFailure()
    ensures e.Normal? && e.head == Sym(ListHead) ==> r == DecodeArgs(e.elems)
  {
    var list :- TryNormalWithHead(e, ListHead);
    DecodeArgs(list)
  }

  /** The subcommand list: all decode, or the first failure is the result. */
  function DecodeCommands(es: seq<Expr>): (r: Outcome<seq<ClapCommand>, DecodeError>)
    ensures r.Ok? <==> forall i :: 0 <= i < |es| ==> DecodeCommand(es[i]).Ok?
    ensures r.Ok? ==> |r.value| == |es|
                      && forall i :: 0 <= i < |es| ==> DecodeCommand(es[i]) == Ok(r.value[i])
    ensures !r.Ok? ==> exists i :: 0 <= i < |es| && !DecodeCommand(es[i]).Ok?
                                   && r == DecodeCommand(es[i]).PropagateFailure()
                                   && forall j :: 0 <= j < i ==> DecodeCommand(es[j]).Ok?
    decreases es
  {
    if |es| == 0 then Ok([])
    else
      var c :- DecodeCommand(es[0]);
      var rest :- DecodeCommands(es[1..]);
      Ok([c] + rest)
  }

  //======================================
  // The schema form of a decoded command
  //======================================

  /** The flag rules that describe one short-flag setting; `Disabled` is
      written by giving no rule. */
  function ShortRules(short: FlagSetting<char>): seq<Expr> {
    match short
    case Explicit(c) => [Rule(Str("Short"), Str([c]))]
    case Automatic => [Rule(Str("Short"), Sym(AutomaticSym))]
    case Disabled => []
  }

  function LongRules(long: FlagSetting<string>): seq<Expr> {
    match long
    case Explicit(s) => [Rule(Str("Long"), Str(s))]
    case Automatic => [Rule(Str("Long"), Sym(AutomaticSym))]
    case Disabled => []
  }

  function EncodeFlagSpec(spec: (FlagSetting<char>, FlagSetting<string>)): Expr {
    List(ShortRules(spec.0) + LongRules(spec.1))
  }

  /** An argument the `ClapArg[...]` form can express: a flag list needs an
      action before it, and only the five nameable actions exist. */
  predicate EncodableArg(a: ClapArg) {
    && (a.flagSpec.Some? ==> a.action.Some?)
    && (a.action.Some? ==> Decodable(a.action.value))
  }

  function EncodeArg(a: ClapArg): Expr {
    Normal(Sym(ClapArgHead),
      [Str(a.argName)]
      + (if a.action.Some? then [Str(ActionName(a.action.value))] else [])
      + (if a.flagSpec.Some? then [EncodeFlagSpec(a.flagSpec.value)] else []))
  }

  function EncodeArgs(args: seq<ClapArg>): (es: seq<Expr>)
    ensures |es| == |args|
    ensures forall i :: 0 <= i < |args| ==> es[i] == EncodeArg(args[i])
  {
    seq(|args|, i requires 0 <= i < |args| => EncodeArg(args[i]))
  }

  function EncodeSettings(s: ClapCommandSettings): Expr {
    Association(if s.argRequiredElseHelp.Some?
                then [Rule(Str("ArgRequiredElseHelp"), Bool(s.argRequiredElseHelp.value))]
                else [])
  }

  /** A command the `ClapCommand[...]` form can express: settings come after
      a subcommand list, and every argument and subcommand is expressible. */
  predicate EncodableCommand(c: ClapCommand)
    decreases c
  {
    && (c.settings.Some? ==> c.subcommands.Present?)
    && (forall i :: 0 <= i < |c.args| ==> EncodableArg(c.args[i]))
    && match c.subcommands
       case Absent => true
       case Present(subs) => forall i :: 0 <= i < |subs| ==> EncodableCommand(subs[i])
  }

  function EncodeCommand(c: ClapCommand): Expr
    decreases c
  {
    Normal(Sym(ClapCommandHead),
      [Str(c.commandName), List(EncodeArgs(c.args))]
      + (match c.subcommands
         case Present(subs) => [List(EncodeCommands(subs))]
         case Absent => [])
      + (if c.settings.Some? then [EncodeSettings(c.settings.value)] else []))
  }

  function EncodeCommands(cs: seq<ClapCommand>): (es: seq<Expr>)
    ensures |es| == |cs|
    decreases cs
  {
    if |cs| == 0 then [] else [EncodeCommand(cs[0])] + EncodeCommands(cs[1..])
  }

  lemma EncodeCommandsIndex(cs: seq<ClapCommand>, i: nat)
    requires i < |cs|
    ensures EncodeCommands(cs)[i] == EncodeCommand(cs[i])
    decreases i
  {
    if i > 0 {
      EncodeCommandsIndex(cs[1..], i - 1);
    }
  }

  lemma {:induction false} DecodeEncodeFlagSpec(spec: (FlagSetting<char>, FlagSetting<string>))
    ensures DecodeFlagSpec(EncodeFlagSpec(spec)) == Ok(spec)
  {
    var rules := ShortRules(spec.0) + LongRules(spec.1);
    if spec.1.Disabled? {
      assert LongRules(spec.1) == [];
    } else {
      assert FoldFlagRules(LongRules(spec.1), spec.0, Disabled) == Ok(spec);
    }
    if spec.0.Disabled? {
      assert rules == LongRules(spec.1);
    } else {
      assert rules[1..] == LongRules(spec.1);
      assert FoldFlagRules(rules, Disabled, Disabled) == FoldFlagRules(rules[1..], spec.0, Disabled);
    }
  }

  /** Decoding the schema form of an expressible argument gives it back. */
  lemma {:induction false} DecodeEncodeArg(a: ClapArg)
    requires EncodableArg(a)
    ensures DecodeArg(EncodeArg(a)) == Ok(a)
  {
    if a.flagSpec.Some? {
      DecodeEncodeFlagSpec(a.flagSpec.value);
    }
  }

  lemma {:induction false} DecodeEncodeArgs(args: seq<ClapArg>)
    requires forall i :: 0 <= i < |args| ==> EncodableArg(args[i])
    ensures DecodeArgs(EncodeArgs(args)) == Ok(args)
    decreases |args|
  {
    if |args| > 0 {
      DecodeEncodeArg(args[0]);
      assert EncodeArgs(args)[1..] == EncodeArgs(args[1..]);
      DecodeEncodeArgs(args[1..]);
      assert args == [args[0]] + args[1..];
    }
  }

  lemma DecodeEncodeSettings(s: ClapCommandSettings)
    ensures DecodeSettings(EncodeSettings(s)) == Ok(s)
  {
  }

  /** Decoding the schema form of an expressible command gives it back, so
      every expressible command is the decoding of some expression. */
  lemma {:induction false} DecodeEncodeCommand(c: ClapCommand)
    requires EncodableCommand(c)
    ensures DecodeCommand(EncodeCommand(c)) == Ok(c)
    decreases c
  {
    var elements := EncodeCommand(c).elems;
    assert elements[0] == Str(c.commandName);
    assert elements[1] == List(EncodeArgs(c.args));
    DecodeEncodeArgs(c.args);
    assert DecodeArgList(elements[1]) == Ok(c.args);
    match c.subcommands {
      case Present(subs) =>
        assert elements[2] == List(EncodeCommands(subs));
        DecodeEncodeCommands(subs);
      case Absent =>
        assert |elements| == 2;
    }
    if c.settings.Some? {
      assert elements[3] == EncodeSettings(c.settings.value);
      DecodeEncodeSettings(c.settings.value);
    }
  }

  lemma {:induction false} DecodeEncodeCommands(cs: seq<ClapCommand>)
    requires forall i :: 0 <= i < |cs| ==> EncodableCommand(cs[i])
    ensures DecodeCommands(EncodeCommands(cs)) == Ok(cs)
    decreases cs
  {
    var es := EncodeCommands(cs);
    forall i | 0 <= i < |cs|
      ensures DecodeCommand(es[i]) == Ok(cs[i])
    {
      EncodeCommandsIndex(cs, i);
      DecodeEncodeCommand(cs[i]);
    }
    assert DecodeCommands(es).value == cs;
  }

  /** Conversely, whatever the decoder returns is expressible. */
  lemma {:induction false} DecodedIsEncodable(e: Expr)
    requires DecodeCommand(e).Ok?
    ensures EncodableCommand(DecodeCommand(e).value)
    decreases e
  {
    var c := DecodeCommand(e).value;
    var argExprs := e.elems[1].elems;
    forall i | 0 <= i < |c.args|
      ensures EncodableArg(c.args[i])
    {
      assert DecodeArg(argExprs[i]) == Ok(c.args[i]);
    }
    if c.subcommands.Present? {
      var subExprs := e.elems[2].elems;
      forall i | 0 <= i < |c.subcommands.commands|
        ensures EncodableCommand(c.subcommands.commands[i])
      {
        assert subExprs[i] in e.elems[2].elems;
        DecodedIsEncodable(subExprs[i]);
      }
    }
  }
}

=== FILE: metadata.dfy ===
/** `extract_arg_metadata`: before parsing, record for every command path
    the ids and actions of the arguments declared directly on that command,
    since the matches of a parse no longer tell how to read each id. */
module Metadata {
  import opened Wrappers
  import opened Spec
  import opened Clap

  datatype ArgMetadata = ArgMetadata(id: string, action: ArgAction)

  /** Command names from the root down to one command, e.g. `["wolfram", "paclet", "test"]`. */
  type CommandPath = seq<string>

  type MetadataMap = map<CommandPath, seq<ArgMetadata>>

  /** One entry per declared argument, in declaration order. */
  function ArgsMetadata(args: seq<Arg>): (md: seq<ArgMetadata>)
    ensures |md| == |args|
    ensures forall i :: 0 <= i < |args| ==> md[i] == ArgMetadata(args[i].id, GetAction(args[i]))
  {
    seq(|args|, i requires 0 <= i < |args| => ArgMetadata(args[i].id, GetAction(args[i])))
  }

  /** `build_arg_metadata`: insert the entry of `command` under its path
      (overwriting any earlier one), then visit its subcommands in order. */
  function BuildArgMetadata(data: MetadataMap, parent: CommandPath, command: Command): MetadataMap
    decreases command
  {
    var path := parent + [command.name];
    BuildAll(data[path := ArgsMetadata(command.args)], path, command.subcommands)
  }

  function BuildAll(data: MetadataMap, path: CommandPath, subcommands: seq<Command>): MetadataMap
    decreases subcommands
  {
    if |subcommands| == 0 then data
    else BuildAll(BuildArgMetadata(data, path, subcommands[0]), path, subcommands[1..])
  }

  /** `extract_arg_metadata`: the walk from the root with an empty map.  The
      map has a key for exactly the paths of the tree, including subcommands
      a parse will never select; the root's path holds the root's own
      arguments; and with distinct sibling names every path holds the
      arguments of the node it leads to, as (id, action) pairs in
      declaration order. */
  function ExtractArgMetadata(command: Command): (r: MetadataMap)
    ensures r.Keys == Paths(command)
    ensures [command.name] in r && r[[command.name]] == ArgsMetadata(command.args)
    ensures UniqueNames(command) ==> Records(r, [], command)
  {
    WalkFromRootKeys(command);
    WalkFromRootKeepsRoot(command);
    if UniqueNames(command) then
      BuildRecords(map[], [], command);
      BuildArgMetadata(map[], [], command)
    else BuildArgMetadata(map[], [], command)
  }

  lemma WalkFromRootKeys(command: Command)
    ensures BuildArgMetadata(map[], [], command).Keys == Paths(command)
  {
    BuildKeys(map[], [], command);
    PrefixedEmpty(Paths(command));
  }

  lemma PrefixedEmpty(ps: set<CommandPath>)
    ensures Prefixed([], ps) == ps
  {
    assert forall p :: p in ps ==> [] + p == p;
  }

  /** The walk never overwrites the root's own entry. */
  lemma WalkFromRootKeepsRoot(command: Command)
    ensures [command.name] in BuildArgMetadata(map[], [], command)
    ensures BuildArgMetadata(map[], [], command)[[command.name]] == ArgsMetadata(command.args)
  {
    var root := [command.name];
    assert [] + root == root;
    PathNotBelowItself(root, command.subcommands);
    BuildAllFrame(map[root := ArgsMetadata(command.args)], root, command.subcommands, root);
  }

  //======================================
  // Paths of a command tree
  //======================================

  /** Every path from `command` down to one of its nodes, selected or not. */
  function Paths(command: Command): set<CommandPath>
    decreases command
  {
    {[command.name]} + Prefixed([command.name], SubPaths(command.subcommands))
  }

  function SubPaths(subcommands: seq<Command>): set<CommandPath>
    decreases subcommands
  {
    if |subcommands| == 0 then {}
    else Paths(subcommands[0]) + SubPaths(subcommands[1..])
  }

  function Prefixed(prefix: CommandPath, ps: set<CommandPath>): set<CommandPath> {
    set p | p in ps :: prefix + p
  }

  /** The node a path leads to, choosing the first subcommand of a name. */
  function NodeAt(command: Command, p: CommandPath): Option<Command>
    decreases command
  {
    if |p| == 0 || p[0] != command.name then None
    else if |p| == 1 then Some(command)
    else NodeAtChildren(command.subcommands, p[1..])
  }

  function NodeAtChildren(subcommands: seq<Command>, p: CommandPath): Option<Command>
    decreases subcommands
  {
    if |subcommands| == 0 || |p| == 0 then None
    else if subcommands[0].name == p[0] then NodeAt(subcommands[0], p)
    else NodeAtChildren(subcommands[1..], p)
  }

  /** Sibling subcommands have distinct names, at every level. */
  predicate UniqueNames(command: Command)
    decreases command
  {
    && DistinctNames(command.subcommands)
    && forall i :: 0 <= i < |command.subcommands| ==> UniqueNames(command.subcommands[i])
  }

  predicate DistinctNames(cs: seq<Command>) {
    forall i, j :: 0 <= i < j < |cs| ==> cs[i].name != cs[j].name
  }

  //======================================
  // Facts about paths
  //======================================

  lemma PathsStartWithName(command: Command, p: CommandPath)
    requires p in Paths(command)
    ensures |p| >= 1 && p[0] == command.name
  {
    if p != [command.name] {
      var q :| q in SubPaths(command.subcommands) && p == [command.name] + q;
    }
  }

  lemma {:induction false} SubPathsMember(subcommands: seq<Command>, p: CommandPath)
    ensures p in SubPaths(subcommands) <==> exists j :: 0 <= j < |subcommands| && p in Paths(subcommands[j])
    decreases subcommands
  {
    if |subcommands| > 0 {
      SubPathsMember(subcommands[1..], p);
      if p in SubPaths(subcommands[1..]) {
        var j :| 0 <= j < |subcommands[1..]| && p in Paths(subcommands[1..][j]);
        assert p in Paths(subcommands[j + 1]);
      }
      if exists j :: 0 <= j < |subcommands| && p in Paths(subcommands[j]) {
        var j :| 0 <= j < |subcommands| && p in Paths(subcommands[j]);
        if j > 0 {
          assert subcommands[1..][j - 1] == subcommands[j];
        }
      }
    }
  }

  lemma PrefixedAppend(prefix: CommandPath, name: string, ps: set<CommandPath>)
    ensures Prefixed(prefix, Prefixed([name], ps)) == Prefixed(prefix + [name], ps)
  {
    forall x | x in Prefixed(prefix, Prefixed([name], ps))
      ensures x in Prefixed(prefix + [name], ps)
    {
      var y :| y in Prefixed([name], ps) && x == prefix + y;
      var q :| q in ps && y == [name] + q;
      assert x == (prefix + [name]) + q;
    }
    forall x | x in Prefixed(prefix + [name], ps)
      ensures x in Prefixed(prefix, Prefixed([name], ps))
    {
      var q :| q in ps && x == (prefix + [name]) + q;
      assert [name] + q in Prefixed([name], ps);
      assert x == prefix + ([name] + q);
    }
  }

  /** The keys a command's own walk adds: its path, then those of its
      subcommands below it. */
  lemma PrefixedPaths(parent: CommandPath, command: Command)
    ensures Prefixed(parent, Paths(command))
            == {parent + [command.name]} + Prefixed(parent + [command.name], SubPaths(command.subcommands))
  {
    var sub := Prefixed([command.name], SubPaths(command.subcommands));
    assert Prefixed(parent, {[command.name]} + sub) == {parent + [command.name]} + Prefixed(parent, sub);
    PrefixedAppend(parent, command.name, SubPaths(command.subcommands));
  }

  //======================================
  // The map covers every path
  //======================================

  lemma {:induction false} BuildKeys(data: MetadataMap, parent: CommandPath, command: Command)
    ensures BuildArgMetadata(data, parent, command).Keys == data.Keys + Prefixed(parent, Paths(command))
    decreases command
  {
    var path := parent + [command.name];
    BuildAllKeys(data[path := ArgsMetadata(command.args)], path, command.subcommands);
    PrefixedPaths(parent, command);
  }

  lemma {:induction false} BuildAllKeys(data: MetadataMap, path: CommandPath, subcommands: seq<Command>)
    ensures BuildAll(data, path, subcommands).Keys == data.Keys + Prefixed(path, SubPaths(subcommands))
    decreases subcommands
  {
    if |subcommands| > 0 {
      BuildKeys(data, path, subcommands[0]);
      BuildAllKeys(BuildArgMetadata(data, path, subcommands[0]), path, subcommands[1..]);
      assert Prefixed(path, Paths(subcommands[0]) + SubPaths(subcommands[1..]))
             == Prefixed(path, Paths(subcommands[0])) + Prefixed(path, SubPaths(subcommands[1..]));
    }
  }

  //======================================
  // The map holds each node's own arguments
  //======================================

  /** Keys outside the walked subtree keep their value. */
  lemma {:induction false} BuildFrame(data: MetadataMap, parent: CommandPath, command: Command, k: CommandPath)
    requires k in data && k !in Prefixed(parent, Paths(command))
    ensures k in BuildArgMetadata(data, parent, command)
    ensures BuildArgMetadata(data, parent, command)[k] == data[k]
    decreases command
  {
    var path := parent + [command.name];
    PrefixedPaths(parent, command);
    BuildAllFrame(data[path := ArgsMetadata(command.args)], path, command.subcommands, k);
  }

  lemma {:induction false} BuildAllFrame(data: MetadataMap, path: CommandPath, subcommands: seq<Command>, k: CommandPath)
    requires k in data && k !in Prefixed(path, SubPaths(subcommands))
    ensures k in BuildAll(data, path, subcommands)
    ensures BuildAll(data, path, subcommands)[k] == data[k]
    decreases subcommands
  {
    if |subcommands| > 0 {
      assert Prefixed(path, Paths(subcommands[0]) + SubPaths(subcommands[1..]))
             == Prefixed(path, Paths(subcommands[0])) + Prefixed(path, SubPaths(subcommands[1..]));
      BuildFrame(data, path, subcommands[0], k);
      BuildAllFrame(BuildArgMetadata(data, path, subcommands[0]), path, subcommands[1..], k);
    }
  }

  /** The value stored for a path is what the walk recorded for the node
      the path leads to. */
  predicate Records(meta: MetadataMap, parent: CommandPath, command: Command) {
    forall q :: q in Paths(command) ==> RecordedAt(meta, parent + q, NodeAt(command, q))
  }

  /** `key` holds the argument metadata of `node`, which exists. */
  predicate RecordedAt(meta: MetadataMap, key: CommandPath, node: Option<Command>) {
    key in meta && node.Some? && meta[key] == ArgsMetadata(node.value.args)
  }

  /** With distinct sibling names, the lookup of a path below the `j`-th
      subcommand finds that subcommand's node. */
  lemma {:induction false} NodeAtChildrenFinds(subcommands: seq<Command>, j: nat, q: CommandPath)
    requires DistinctNames(subcommands) && j < |subcommands| && q in Paths(subcommands[j])
    ensures NodeAtChildren(subcommands, q) == NodeAt(subcommands[j], q)
    decreases j
  {
    PathsStartWithName(subcommands[j], q);
    if j > 0 {
      assert subcommands[0].name != q[0];
      assert subcommands[1..][j - 1] == subcommands[j];
      NodeAtChildrenFinds(subcommands[1..], j - 1, q);
    }
  }

  /** Paths below a path are strictly longer than it. */
  lemma PathNotBelowItself(path: CommandPath, subcommands: seq<Command>)
    ensures path !in Prefixed(path, SubPaths(subcommands))
  {
    forall x | x in Prefixed(path, SubPaths(subcommands))
      ensures x != path
    {
      var r :| r in SubPaths(subcommands) && x == path + r;
      SubPathsMember(subcommands, r);
      var j :| 0 <= j < |subcommands| && r in Paths(subcommands[j]);
      PathsStartWithName(subcommands[j], r);
      assert |x| > |path|;
    }
  }

  lemma {:induction false} BuildRecords(data: MetadataMap, parent: CommandPath, command: Command)
    requires UniqueNames(command)
    ensures Records(BuildArgMetadata(data, parent, command), parent, command)
    decreases command
  {
    var path := parent + [command.name];
    var data' := data[path := ArgsMetadata(command.args)];
    var result := BuildArgMetadata(data, parent, command);
    assert result == BuildAll(data', path, command.subcommands);
    BuildAllRecords(data', path, command.subcommands);
    forall q | q in Paths(command)
      ensures RecordedAt(result, parent + q, NodeAt(command, q))
    {
      if q == [command.name] {
        PathNotBelowItself(path, command.subcommands);
        BuildAllFrame(data', path, command.subcommands, path);
      } else {
        BelowRecorded(result, parent, command, q);
      }
    }
  }

  /** A path below the root of `command` is recorded when every path of
      every subcommand is recorded under the root's path. */
  lemma BelowRecorded(meta: MetadataMap, parent: CommandPath, command: Command, q: CommandPath)
    requires DistinctNames(command.subcommands)
    requires q in Paths(command) && q != [command.name]
    requires forall j, r :: 0 <= j < |command.subcommands| && r in Paths(command.subcommands[j]) ==>
               RecordedAt(meta, (parent + [command.name]) + r, NodeAt(command.subcommands[j], r))
    ensures RecordedAt(meta, parent + q, NodeAt(command, q))
  {
    var r :| r in SubPaths(command.subcommands) && q == [command.name] + r;
    SubPathsMember(command.subcommands, r);
    var j :| 0 <= j < |command.subcommands| && r in Paths(command.subcommands[j]);
    PathsStartWithName(command.subcommands[j], r);
    NodeAtChildrenFinds(command.subcommands, j, r);
    assert q[1..] == r;
    assert parent + q == (parent + [command.name]) + r;
  }

  lemma {:induction false} BuildAllRecords(data: MetadataMap, path: CommandPath, subcommands: seq<Command>)
    requires DistinctNames(subcommands)
    requires forall i :: 0 <= i < |subcommands| ==> UniqueNames(subcommands[i])
    ensures forall j, r :: 0 <= j < |subcommands| && r in Paths(subcommands[j]) ==>
              RecordedAt(BuildAll(data, path, subcommands), path + r, NodeAt(subcommands[j], r))
    decreases subcommands
  {
    if |subcommands| > 0 {
      var first := BuildArgMetadata(data, path, subcommands[0]);
      var rest := subcommands[1..];
      BuildRecords(data, path, subcommands[0]);
      BuildAllRecords(first, path, rest);
      forall j, r | 0 <= j < |subcommands| && r in Paths(subcommands[j])
        ensures RecordedAt(BuildAll(data, path, subcommands), path + r, NodeAt(subcommands[j], r))
      {
        if j == 0 {
          forall x | x in Prefixed(path, SubPaths(rest))
            ensures x != path + r
          {
            var r' :| r' in SubPaths(rest) && x == path + r';
            SubPathsMember(rest, r');
            var j' :| 0 <= j' < |rest| && r' in Paths(rest[j']);
            PathsStartWithName(rest[j'], r');
            PathsStartWithName(subcommands[0], r);
            assert rest[j'] == subcommands[j' + 1];
            assert x[|path|] == r'[0] && (path + r)[|path|] == r[0];
          }
          BuildAllFrame(first, path, rest, path + r);
        } else {
          assert rest[j - 1] == subcommands[j];
        }
      }
    }
  }

  /** A path below a recorded node is recorded one level further down. */
  lemma RecordsChild(meta: MetadataMap, parent: CommandPath, command: Command, i: nat)
    requires Records(meta, parent, command)
    requires DistinctNames(command.subcommands)
    requires i < |command.subcommands|
    ensures Records(meta, parent + [command.name], command.subcommands[i])
  {
    var child := command.subcommands[i];
    forall q | q in Paths(child)
      ensures RecordedAt(meta, (parent + [command.name]) + q, NodeAt(child, q))
    {
      var q' := [command.name] + q;
      PathsStartWithName(child, q);
      assert q' in Paths(command) by {
        SubPathsMember(command.subcommands, q);
        assert q in SubPaths(command.subcommands);
      }
      assert NodeAt(command, q') == NodeAt(child, q) by {
        assert q'[1..] == q;
        NodeAtChildrenFinds(command.subcommands, i, q);
      }
      RecordsAt(meta, parent, command, q');
      assert parent + q' == (parent + [command.name]) + q;
    }
  }

  lemma RecordsAt(meta: MetadataMap, parent: CommandPath, command: Command, q: CommandPath)
    requires Records(meta, parent, command) && q in Paths(command)
    ensures parent + q in meta && NodeAt(command, q).Some?
    ensures meta[parent + q] == ArgsMetadata(NodeAt(command, q).value.args)
  {
  }
}

=== FILE: paclet.dfy ===
/** Paclet names as the `paclet new` command reads them: a plain name, or a
    resource name `publisher/base` with exactly one forward slash. */
module Paclet {
  import opened Wrappers

  /** Number of forward slashes in a string. */
  function Slashes(s: string): nat {
    multiset(s)['/']
  }

  /** `str::split('/')`: the pieces between slashes, in order.  Like Rust's
      splitter it yields one piece more than there are slashes, so the
      empty string splits into one empty piece. */
  function Split(s: string): (parts: seq<string>)
    ensures |parts| > 0
    decreases |s|
  {
    if |s| == 0 then [""]
    else if s[0] == '/' then [""] + Split(s[1..])
    else
      var rest := Split(s[1..]);
      [[s[0]] + rest[0]] + rest[1..]
  }

  /** The pieces glued back together with a slash between neighbours; the
      reference definition that `Split` inverts. */
  function Join(parts: seq<string>): string
    requires |parts| > 0
    decreases |parts|
  {
    if |parts| == 1 then parts[0] else parts[0] + "/" + Join(parts[1..])
  }

  predicate NoSlash(s: string) {
    '/' !in s
  }

  predicate AllNoSlash(parts: seq<string>) {
    forall i :: 0 <= i < |parts| ==> NoSlash(parts[i])
  }

  lemma SlashesCons(c: char, s: string)
    ensures Slashes([c] + s) == (if c == '/' then 1 else 0) + Slashes(s)
  {
    assert multiset([c] + s) == multiset([c]) + multiset(s);
  }

  lemma NoSlashIsZero(s: string)
    ensures NoSlash(s) <==> Slashes(s) == 0
  {
    if '/' in s {
      assert '/' in multiset(s);
    } else {
      assert '/' !in multiset(s);
    }
  }

  /** Splitting yields exactly one piece more than there are slashes, and no
      piece contains a slash. */
  lemma {:induction false} SplitShape(s: string)
    ensures |Split(s)| == Slashes(s) + 1
    ensures AllNoSlash(Split(s))
    decreases |s|
  {
    if |s| == 0 {
    } else {
      assert s == [s[0]] + s[1..];
      SlashesCons(s[0], s[1..]);
      SplitShape(s[1..]);
      var rest := Split(s[1..]);
      if s[0] != '/' {
        var parts := Split(s);
        assert parts == [[s[0]] + rest[0]] + rest[1..];
        forall i | 0 <= i < |parts|
          ensures NoSlash(parts[i])
        {
          if i == 0 {
            assert NoSlash(rest[0]);
          } else {
            assert parts[i] == rest[i];
          }
        }
      }
    }
  }

  lemma {:induction false} JoinConsHead(c: char, parts: seq<string>)
    requires |parts| > 0
    ensures Join([[c] + parts[0]] + parts[1..]) == [c] + Join(parts)
    decreases |parts|
  {
    var q := [[c] + parts[0]] + parts[1..];
    if |parts| > 1 {
      assert q[1..] == parts[1..];
    }
  }

  lemma JoinCons(p: string, parts: seq<string>)
    requires |parts| > 0
    ensures Join([p] + parts) == p + "/" + Join(parts)
  {
    assert ([p] + parts)[1..] == parts;
  }

  /** Gluing the pieces back gives the original string. */
  lemma {:induction false} JoinSplit(s: string)
    ensures Join(Split(s)) == s
    decreases |s|
  {
    if |s| == 0 {
    } else {
      JoinSplit(s[1..]);
      var rest := Split(s[1..]);
      if s[0] == '/' {
        JoinCons("", rest);
        assert s == "" + "/" + s[1..];
      } else {
        JoinConsHead(s[0], rest);
        assert s == [s[0]] + s[1..];
      }
    }
  }

  /** Pieces without slashes are recovered by splitting their join. */
  lemma {:induction false} SplitJoin(parts: seq<string>)
    requires |parts| > 0 && AllNoSlash(parts)
    ensures Split(Join(parts)) == parts
    decreases |parts|, |parts[0]|
  {
    if |parts[0]| == 0 {
      if |parts| > 1 {
        SplitJoin(parts[1..]);
        assert Join(parts) == "/" + Join(parts[1..]);
        assert ("/" + Join(parts[1..]))[1..] == Join(parts[1..]);
        assert parts == [""] + parts[1..];
      }
    } else {
      var c := parts[0][0];
      var tail := [parts[0][1..]] + parts[1..];
      assert NoSlash(parts[0][1..]) by {
        assert forall k :: 0 <= k < |parts[0][1..]| ==> parts[0][1..][k] == parts[0][k + 1];
      }
      assert AllNoSlash(tail) by {
        forall i | 0 <= i < |tail|
          ensures NoSlash(tail[i])
        {
          if i > 0 {
            assert tail[i] == parts[i];
          }
        }
      }
      SplitJoin(tail);
      assert tail[0] == parts[0][1..] && tail[1..] == parts[1..];
      assert [c] + parts[0][1..] == parts[0];
      JoinConsHead(c, tail);
      assert Join(parts) == [c] + Join(tail);
      assert c != '/' by {
        assert parts[0][0] in parts[0];
      }
      assert ([c] + Join(tail))[1..] == Join(tail);
      assert Split(Join(parts)) == [[c] + tail[0]] + tail[1..];
    }
  }

  /** `PacletName`: a resource name split at its slash, or a plain name. */
  datatype PacletName = Resource(publisher: string, base: string) | Normal(name: string)

  /** The error `from_str` reports; it carries the rejected name. */
  datatype PacletNameError = TooManySlashes(rejected: string)

  /** `PacletName::from_str`: one piece is a plain name, two pieces are a
      publisher and a base name, more pieces are an error. */
  function FromStr(name: string): (r: Outcome<PacletName, PacletNameError>)
    ensures !r.Panic?
    ensures r.Ok? <==> Slashes(name) <= 1
    ensures r.Err? ==> r.error == TooManySlashes(name)
    ensures r == Ok(Normal(name)) <==> NoSlash(name)
    ensures r.Ok? && r.value.Normal? ==> r.value.name == name
    ensures r.Ok? && r.value.Resource? ==>
              && r.value.publisher + "/" + r.value.base == name
              && NoSlash(r.value.publisher) && NoSlash(r.value.base)
  {
    var components := Split(name);
    SplitShape(name);
    JoinSplit(name);
    NoSlashIsZero(name);
    if |components| == 1 then Ok(Normal(name))
    else if |components| == 2 then
      assert components[1..] == [components[1]];
      Ok(Resource(components[0], components[1]))
    else Err(TooManySlashes(name))
  }

  /** A publisher and a base without slashes, joined by one slash, read back
      as that resource name; a slash-free name reads back as itself. */
  lemma FromStrInverse(publisher: string, base: string)
    requires NoSlash(publisher) && NoSlash(base)
    ensures FromStr(publisher + "/" + base) == Ok(Resource(publisher, base))
    ensures FromStr(publisher) == Ok(Normal(publisher))
  {
    var parts := [publisher, base];
    assert parts[1..] == [base];
    SplitJoin(parts);
  }

  /** In `publisher/base`, the publisher is everything before the last
      `|base| + 1` characters. */
  lemma PublisherPrefix(name: string, publisher: string, base: string)
    requires publisher + "/" + base == name
    ensures |base| < |name| && name[..|name| - |base| - 1] == publisher
  {
    assert name[..|publisher|] == publisher;
  }

  /** The directory rename `paclet new --shorten-to-base-name` performs on a
      resource paclet: from `publisher__base` to `base`.  A name `from_str`
      rejects aborts (it is unwrapped before the flag is looked at); a plain
      name, or the flag not being set, renames nothing. */
  function ShortenNames(name: string, shorten: bool): (r: Outcome<Option<(string, string)>, ()>)
    ensures !r.Err?
    ensures r.Panic? <==> Slashes(name) > 1
    ensures r.Panic? ==> r.fault == MalformedPacletName
    ensures r.Ok? && r.value.Some? ==> shorten && Slashes(name) == 1
    ensures shorten && Slashes(name) == 1 ==> r.Ok? && r.value.Some?
    ensures r.Ok? && r.value.Some? ==>
              && |r.value.value.0| == |name| + 1
              && NoSlash(r.value.value.1)
              && |r.value.value.1| < |name|
              && name == name[..|name| - |r.value.value.1| - 1] + "/" + r.value.value.1
              && r.value.value.0 == name[..|name| - |r.value.value.1| - 1] + "__" + r.value.value.1
  {
    match FromStr(name)
    case Ok(Resource(publisher, base)) =>
      if shorten then
        PublisherPrefix(name, publisher, base);
        Ok(Some((publisher + "__" + base, base)))
      else Ok(None)
    case Ok(Normal(_)) => Ok(None)
    case _ => Panic(MalformedPacletName)
  }

  /** The rename for `publisher/base` is `publisher__base` to `base`. */
  lemma ShortenResource(publisher: string, base: string)
    requires NoSlash(publisher) && NoSlash(base)
    ensures ShortenNames(publisher + "/" + base, true) == Ok(Some((publisher + "__" + base, base)))
    ensures ShortenNames(publisher + "/" + base, false) == Ok(None)
  {
    FromStrInverse(publisher, base);
  }
}

=== FILE: serialize.dfy ===
/** The serializer and the pipeline of `clap_parse`: decode the schema,
    build the command, record its metadata, parse, and turn the matches of
    the selected command chain back into expressions. */
module Serialize {
  import opened Wrappers
  import opened Exprs
  import opened Spec
  import opened Clap
  import opened Metadata
  import FromExpr
  import ToClap

  //======================================
  // One argument
  //======================================

  /** Whether the value stored for `id` has the shape `action` reads. */
  predicate ValueFits(action: ArgAction, id: string, m: ArgMatches) {
    match action
    case Set => id !in m.values || m.values[id].Strings?
    case Append => id !in m.values || m.values[id].Strings?
    case SetTrue => id in m.values && m.values[id].Flag?
    case SetFalse => id in m.values && m.values[id].Flag?
    case Count => id in m.values && m.values[id].Occurrences?
    case Help => false
    case Version => false
  }

  function Strs(vs: seq<string>): (es: seq<Expr>)
    ensures |es| == |vs|
    ensures forall i :: 0 <= i < |vs| ==> es[i] == Str(vs[i])
  {
    seq(|vs|, i requires 0 <= i < |vs| => Str(vs[i]))
  }

  /** The value of one argument, read according to its recorded action. */
  function ArgValueExpr(action: ArgAction, id: string, m: ArgMatches): (r: Outcome<Expr, ()>)
    ensures !r.Err?
    ensures r.Ok? <==> ValueFits(action, id, m)
    ensures action.Help? || action.Version? ==> r == Panic(UnsupportedAction)
    ensures r.Ok? && action.Set? ==>
              if id in m.values && |m.values[id].values| > 0
              then r.value == Str(m.values[id].values[0])
              else r.value == Missing()
    ensures r.Ok? && action.Append? ==>
              if id in m.values then r.value == List(Strs(m.values[id].values))
              else r.value == Missing()
    ensures r.Ok? && (action.SetTrue? || action.SetFalse?) ==> r.value == Bool(m.values[id].flag)
    ensures r.Ok? && action.Count? ==> r.value == Int(m.values[id].count)
  {
    match action
    case Set =>
      var v :- GetOne(m, id);
      Ok(if v.Some? then Str(v.value) else Missing())
    case Append =>
      var vs :- GetMany(m, id);
      Ok(if vs.Some? then List(Strs(vs.value)) else Missing())
    case SetTrue => var b :- GetFlag(m, id); Ok(Bool(b))
    case SetFalse => var b :- GetFlag(m, id); Ok(Bool(b))
    case Count => var n :- GetCount(m, id); Ok(Int(n))
    case Help => Panic(UnsupportedAction)
    case Version => Panic(UnsupportedAction)
  }

  /** Reads a serialized value back into what the parse stored: `None` for
      the missing marker. */
  function ReadBack(e: Expr): Option<ArgValue> {
    if e == Missing() then None
    else match e
      case Str(s) => Some(Strings([s]))
      case Int(n) => if n >= 0 then Some(Occurrences(n)) else None
      case Sym(_) => Some(Flag(e == Bool(true)))
      case Normal(_, es) => Some(Strings(Texts(es)))
  }

  /** The strings of a list of string expressions. */
  function Texts(es: seq<Expr>): (vs: seq<string>)
    ensures |vs| == |es|
    ensures forall i :: 0 <= i < |es| && es[i].Str? ==> vs[i] == es[i].s
  {
    seq(|es|, i requires 0 <= i < |es| => if es[i].Str? then es[i].s else "")
  }

  function Stored(m: ArgMatches, id: string): Option<ArgValue> {
    if id in m.values then Some(m.values[id]) else None
  }

  /** Nothing is lost in serializing an `Append`, flag or count value: it
      reads back as exactly what the parse stored.  A `Set` value keeps its
      first string only, and a stored empty list reads back as missing. */
  lemma ReadBackRecoversStored(action: ArgAction, id: string, m: ArgMatches)
    requires ArgValueExpr(action, id, m).Ok?
    ensures !action.Set? ==> ReadBack(ArgValueExpr(action, id, m).value) == Stored(m, id)
    ensures action.Set? ==>
              ReadBack(ArgValueExpr(action, id, m).value)
              == if id in m.values && |m.values[id].values| > 0
                 then Some(Strings([m.values[id].values[0]])) else None
  {
    var e := ArgValueExpr(action, id, m).value;
    if action.Append? && id in m.values {
      var vs := m.values[id].values;
      assert e == List(Strs(vs));
      assert Texts(Strs(vs)) == vs;
    }
  }

  /** Every recorded argument's value has the shape its action reads. */
  predicate Fits(meta: seq<ArgMetadata>, m: ArgMatches) {
    forall i :: 0 <= i < |meta| ==> ValueFits(meta[i].action, meta[i].id, m)
  }

  /** The `id -> value` rules, one per metadata entry, in metadata order. */
  function ArgRules(meta: seq<ArgMetadata>, m: ArgMatches): (r: Outcome<seq<Expr>, ()>)
    ensures !r.Err?
    ensures r.Ok? <==> Fits(meta, m)
    ensures r.Ok? ==> |r.value| == |meta|
                      && forall i :: 0 <= i < |meta| ==>
                           r.value[i] == Rule(Str(meta[i].id), ArgValueExpr(meta[i].action, meta[i].id, m).value)
    ensures !r.Ok? ==> exists i :: 0 <= i < |meta| && !ValueFits(meta[i].action, meta[i].id, m)
                                   && r == ArgValueExpr(meta[i].action, meta[i].id, m).PropagateFailure()
                                   && forall j :: 0 <= j < i ==> ValueFits(meta[j].action, meta[j].id, m)
  {
    if |meta| == 0 then Ok([])
    else
      var v :- ArgValueExpr(meta[0].action, meta[0].id, m);
      var rest :- ArgRules(meta[1..], m);
      Ok([Rule(Str(meta[0].id), v)] + rest)
  }

  /** `arg_matches_to_expr`: `{name, <|id -> value, ...|>}`. */
  function ArgMatchesToExpr(name: string, meta: seq<ArgMetadata>, m: ArgMatches): (r: Outcome<Expr, ()>)
    ensures !r.Err?
    ensures r.Ok? <==> Fits(meta, m)
    ensures r.Ok? ==> r.value == List([Str(name), Association(ArgRules(meta, m).value)])
    ensures r.Panic? ==> r == ArgRules(meta, m).PropagateFailure()
  {
    var rules :- ArgRules(meta, m);
    Ok(List([Str(name), Association(rules)]))
  }

  //======================================
  // The selected command chain
  //======================================

  /** Every path the chain visits has an entry. */
  predicate ChainPathsIn(meta: MetadataMap, path: CommandPath, m: ArgMatches)
    decreases m
  {
    && path in meta
    && match m.subcommand
       case NoSubcommand => true
       case Subcommand(n, sm) => ChainPathsIn(meta, path + [n], sm)
  }

  /** Every path the chain visits has an entry, and each level's matches
      fit that entry. */
  predicate ChainFits(meta: MetadataMap, path: CommandPath, m: ArgMatches)
    decreases m
  {
    && path in meta
    && Fits(meta[path], m)
    && match m.subcommand
       case NoSubcommand => true
       case Subcommand(n, sm) => ChainFits(meta, path + [n], sm)
  }

  /** `{name, <|...|>}`: the command name one output entry is for. */
  predicate EntryFor(e: Expr, name: string) {
    e.Normal? && e.head == Sym(ListHead) && |e.elems| == 2 && e.elems[0] == Str(name)
  }

  /** The metadata key of level `k` of the chain below `path`. */
  function LevelPath(path: CommandPath, m: ArgMatches, k: nat): CommandPath
    requires k <= Depth(m)
  {
    path + ChainNames(m)[..k]
  }

  /** The command name of level `k` of the chain whose root is `name`. */
  function LevelName(name: string, m: ArgMatches, k: nat): string
    requires k <= Depth(m)
  {
    ([name] + ChainNames(m))[k]
  }

  /** Level `k > 0` below `m` is level `k - 1` below its selected
      subcommand. */
  lemma LevelSteps(path: CommandPath, name: string, m: ArgMatches)
    requires m.subcommand.Subcommand?
    ensures forall k :: 0 < k <= Depth(m) ==>
              var n, sm := m.subcommand.name, m.subcommand.matches;
              && LevelPath(path, m, k) == LevelPath(path + [n], sm, k - 1)
              && LevelName(name, m, k) == LevelName(n, sm, k - 1)
              && MatchesAt(m, k) == MatchesAt(sm, k - 1)
  {
    var n, sm := m.subcommand.name, m.subcommand.matches;
    forall k | 0 < k <= Depth(m)
      ensures LevelPath(path, m, k) == LevelPath(path + [n], sm, k - 1)
    {
      assert ChainNames(m)[..k] == [n] + ChainNames(sm)[..k - 1];
    }
  }

  /** Entry `k` of `es` is the serialization of level `k` of the chain:
      that level's name, the metadata stored under that level's path, and
      that level's own matches. */
  predicate LevelsSerialized(meta: MetadataMap, path: CommandPath, name: string, m: ArgMatches, es: seq<Expr>) {
    && |es| == Depth(m) + 1
    && forall k :: 0 <= k <= Depth(m) ==>
         && LevelPath(path, m, k) in meta
         && ArgMatchesToExpr(LevelName(name, m, k), meta[LevelPath(path, m, k)], MatchesAt(m, k)) == Ok(es[k])
  }

  /** This level's entry followed by the entries of the selected
      subcommand's chain are the entries of this chain. */
  lemma LevelsCons(meta: MetadataMap, path: CommandPath, name: string, m: ArgMatches, entry: Expr, rest: seq<Expr>)
    requires m.subcommand.Subcommand?
    requires path in meta && ArgMatchesToExpr(name, meta[path], m) == Ok(entry)
    requires LevelsSerialized(meta, path + [m.subcommand.name], m.subcommand.name, m.subcommand.matches, rest)
    ensures LevelsSerialized(meta, path, name, m, [entry] + rest)
  {
    assert LevelPath(path, m, 0) == path;
    LevelSteps(path, name, m);
  }

  /** The loop of `clap_parse` after a successful parse, as a recursion on
      the chain: look up the metadata of `path` (aborting when it is
      missing), serialize this level, then descend into the selected
      subcommand.  The output has one entry per level, root first. */
  function SerializeChain(meta: MetadataMap, path: CommandPath, name: string, m: ArgMatches)
    : (r: Outcome<seq<Expr>, ()>)
    ensures !r.Err?
    ensures r.Ok? <==> ChainFits(meta, path, m)
    ensures r.Ok? ==> |r.value| == Depth(m) + 1
                      && forall k :: 0 <= k < |r.value| ==> EntryFor(r.value[k], ([name] + ChainNames(m))[k])
    ensures r.Ok? ==> LevelsSerialized(meta, path, name, m, r.value)
    ensures r.Panic? && r.fault.MissingMetadata? ==> !ChainPathsIn(meta, path, m)
    ensures !ChainPathsIn(meta, path, m) ==> r.Panic?
    ensures path !in meta ==> r == Panic(MissingMetadata(path))
    ensures path in meta && !ArgMatchesToExpr(name, meta[path], m).Ok? ==>
              r == ArgMatchesToExpr(name, meta[path], m).PropagateFailure()
    ensures path in meta && ArgMatchesToExpr(name, meta[path], m).Ok? && m.subcommand.Subcommand?
            && !SerializeChain(meta, path + [m.subcommand.name], m.subcommand.name, m.subcommand.matches).Ok? ==>
              r == SerializeChain(meta, path + [m.subcommand.name], m.subcommand.name, m.subcommand.matches).PropagateFailure()
    decreases m
  {
    if path !in meta then Panic(MissingMetadata(path))
    else
      var entry :- ArgMatchesToExpr(name, meta[path], m);
      match m.subcommand
      case NoSubcommand =>
        assert LevelPath(path, m, 0) == path;
        Ok([entry])
      case Subcommand(n, sm) =>
        var rest :- SerializeChain(meta, path + [n], n, sm);
        LevelsCons(meta, path, name, m, entry, rest);
        Ok([entry] + rest)
  }

  /** The entries still to come after the entry of `m` itself. */
  function ChainRest(meta: MetadataMap, path: CommandPath, m: ArgMatches): Outcome<seq<Expr>, ()> {
    match m.subcommand
    case NoSubcommand => Ok([])
    case Subcommand(n, sm) => SerializeChain(meta, path + [n], n, sm)
  }

  function Prepend(done: seq<Expr>, rest: Outcome<seq<Expr>, ()>): Outcome<seq<Expr>, ()> {
    match rest
    case Ok(es) => Ok(done + es)
    case Err(e) => Err(e)
    case Panic(f) => Panic(f)
  }

  lemma PrependPrepend(done: seq<Expr>, e: Expr, rest: Outcome<seq<Expr>, ()>)
    ensures Prepend(done, Prepend([e], rest)) == Prepend(done + [e], rest)
  {
    if rest.Ok? {
      assert done + ([e] + rest.value) == (done + [e]) + rest.value;
    }
  }

  /** One step of the chain: this level's entry, then the rest. */
  lemma ChainStep(meta: MetadataMap, path: CommandPath, name: string, m: ArgMatches)
    requires path in meta && ArgMatchesToExpr(name, meta[path], m).Ok?
    ensures SerializeChain(meta, path, name, m)
            == Prepend([ArgMatchesToExpr(name, meta[path], m).value], ChainRest(meta, path, m))
  {
    var entry := ArgMatchesToExpr(name, meta[path], m).value;
    if m.subcommand.NoSubcommand? {
      assert [entry] + [] == [entry];
    }
  }

  /** The `while let Some((name, sub)) = matches.subcommand()` loop itself:
      it pushes the root entry, then one entry per selected subcommand. */
  method CollectCommandMatches(meta: MetadataMap, rootName: string, matches: ArgMatches)
    returns (r: Outcome<seq<Expr>, ()>)
    ensures r == SerializeChain(meta, [rootName], rootName, matches)
  {
    var path := [rootName];
    if path !in meta {
      return Panic(MissingMetadata(path));
    }
    var first := ArgMatchesToExpr(rootName, meta[path], matches);
    if !first.Ok? {
      return first.PropagateFailure();
    }
    var list := [first.value];
    var current := matches;
    ChainStep(meta, path, rootName, matches);
    while current.subcommand.Subcommand?
      invariant SerializeChain(meta, [rootName], rootName, matches) == Prepend(list, ChainRest(meta, path, current))
      decreases current
    {
      var name := current.subcommand.name;
      var sub := current.subcommand.matches;
      path := path + [name];
      if path !in meta {
        return Panic(MissingMetadata(path));
      }
      var entry := ArgMatchesToExpr(name, meta[path], sub);
      if !entry.Ok? {
        return entry.PropagateFailure();
      }
      ChainStep(meta, path, name, sub);
      PrependPrepend(list, entry.value, ChainRest(meta, path, sub));
      list := list + [entry.value];
      current := sub;
    }
    assert list + [] == list;
    return Ok(list);
  }

  //======================================
  // The chain follows the command tree
  //======================================

  /** Each selected subcommand is a subcommand of the level above it. */
  predicate FollowsTree(command: Command, m: ArgMatches)
    decreases m
  {
    match m.subcommand
    case NoSubcommand => true
    case Subcommand(n, sm) =>
      exists i :: 0 <= i < |command.subcommands| && command.subcommands[i].name == n
                  && FollowsTree(command.subcommands[i], sm)
  }

  /** `FollowsTree`, and each level's matches fit that command's own
      arguments. */
  predicate ConformsTo(command: Command, m: ArgMatches)
    decreases m
  {
    && Fits(ArgsMetadata(command.args), m)
    && match m.subcommand
       case NoSubcommand => true
       case Subcommand(n, sm) =>
         exists i :: 0 <= i < |command.subcommands| && command.subcommands[i].name == n
                     && ConformsTo(command.subcommands[i], sm)
  }

  lemma ChildPathsPrefixed(parent: CommandPath, command: Command, i: nat)
    requires i < |command.subcommands|
    ensures Prefixed(parent + [command.name], Paths(command.subcommands[i])) <= Prefixed(parent, Paths(command))
  {
    PrefixedPaths(parent, command);
    SubPathsMember(command.subcommands, []);
    forall q | q in Paths(command.subcommands[i])
      ensures q in SubPaths(command.subcommands)
    {
      SubPathsMember(command.subcommands, q);
    }
  }

  lemma {:induction false} FollowedChainIsRecorded(meta: MetadataMap, parent: CommandPath, command: Command, m: ArgMatches)
    requires Prefixed(parent, Paths(command)) <= meta.Keys
    requires FollowsTree(command, m)
    ensures ChainPathsIn(meta, parent + [command.name], m)
    decreases m
  {
    PrefixedPaths(parent, command);
    match m.subcommand
    case NoSubcommand =>
    case Subcommand(n, sm) =>
      var i :| 0 <= i < |command.subcommands| && command.subcommands[i].name == n
               && FollowsTree(command.subcommands[i], sm);
      ChildPathsPrefixed(parent, command, i);
      FollowedChainIsRecorded(meta, parent + [command.name], command.subcommands[i], sm);
  }

  /** When every selected subcommand is a subcommand of the level above,
      the serializer finds metadata for every path it looks up. */
  lemma ChainLookupsNeverMiss(command: Command, m: ArgMatches)
    requires FollowsTree(command, m)
    ensures ChainPathsIn(ExtractArgMetadata(command), [command.name], m)
    ensures !SerializeChain(ExtractArgMetadata(command), [command.name], command.name, m).Panic?
            || !SerializeChain(ExtractArgMetadata(command), [command.name], command.name, m).fault.MissingMetadata?
  {
    PrefixedEmpty(Paths(command));
    FollowedChainIsRecorded(ExtractArgMetadata(command), [], command, m);
    assert [] + [command.name] == [command.name];
  }

  lemma {:induction false} ConformingChainFits(meta: MetadataMap, parent: CommandPath, command: Command, m: ArgMatches)
    requires Records(meta, parent, command) && UniqueNames(command)
    requires ConformsTo(command, m)
    ensures ChainFits(meta, parent + [command.name], m)
    decreases m
  {
    assert [command.name] in Paths(command);
    RecordsAt(meta, parent, command, [command.name]);
    match m.subcommand
    case NoSubcommand =>
    case Subcommand(n, sm) =>
      var i :| 0 <= i < |command.subcommands| && command.subcommands[i].name == n
               && ConformsTo(command.subcommands[i], sm);
      RecordsChild(meta, parent, command, i);
      ConformingChainFits(meta, parent + [command.name], command.subcommands[i], sm);
  }

  /** With distinct sibling names and matches that conform to the tree, the
      serializer succeeds: the root entry first, then one entry per selected
      subcommand, named as the chain was selected. */
  lemma SerializeConformingChain(command: Command, m: ArgMatches)
    requires UniqueNames(command) && ConformsTo(command, m)
    ensures SerializeChain(ExtractArgMetadata(command), [command.name], command.name, m).Ok?
  {
    ConformingChainFits(ExtractArgMetadata(command), [], command, m);
    assert [] + [command.name] == [command.name];
  }

  //======================================
  // clap_parse
  //======================================

  function Failure(message: string): Expr {
    Normal(Sym(FailureHead), [Str("ClapError"), Str(message)])
  }

  /** `clap_parse`: the schema must decode (a decode error aborts through
      `unwrap`) and build; a parse error is returned as
      `Failure["ClapError", message]`; otherwise the list of entries of the
      selected chain.  clap's own parser is the parameter `parse`. */
  function ClapParse(argv: seq<string>, spec: Expr, parse: (Command, seq<string>) -> ParseResult)
    : (r: Outcome<Expr, ()>)
    ensures !r.Err?
    ensures FromExpr.DecodeCommand(spec).Err? ==> r == Panic(DecodeFailed)
    ensures FromExpr.DecodeCommand(spec).Panic? ==> r == Panic(FromExpr.DecodeCommand(spec).fault)
    ensures FromExpr.DecodeCommand(spec).Ok? && !ToClap.CommandToClap(FromExpr.DecodeCommand(spec).value).Ok? ==>
              r == ToClap.CommandToClap(FromExpr.DecodeCommand(spec).value).PropagateFailure()
    ensures r.Ok? ==> FromExpr.DecodeCommand(spec).Ok? && ToClap.CommandToClap(FromExpr.DecodeCommand(spec).value).Ok?
    ensures FromExpr.DecodeCommand(spec).Ok? && ToClap.CommandToClap(FromExpr.DecodeCommand(spec).value).Ok? ==>
              var command := ToClap.CommandToClap(FromExpr.DecodeCommand(spec).value).value;
              match parse(command, argv)
              case ParseError(msg) => r == Ok(Failure(msg))
              case Parsed(m) =>
                && (r.Ok? <==> ChainFits(ExtractArgMetadata(command), [command.name], m))
                && (!r.Ok? ==> r == SerializeChain(ExtractArgMetadata(command), [command.name], command.name, m)
                                      .PropagateFailure())
    ensures r.Ok? ==>
              var command := ToClap.CommandToClap(FromExpr.DecodeCommand(spec).value).value;
              match parse(command, argv)
              case ParseError(msg) => r.value == Failure(msg)
              case Parsed(m) =>
                && r.value.Normal? && r.value.head == Sym(ListHead)
                && |r.value.elems| == Depth(m) + 1
                && (forall k :: 0 <= k < |r.value.elems| ==>
                      EntryFor(r.value.elems[k], ([command.name] + ChainNames(m))[k]))
                && forall k :: 0 <= k <= Depth(m) ==>
                     && LevelPath([command.name], m, k) in ExtractArgMetadata(command)
                     && ArgMatchesToExpr(LevelName(command.name, m, k),
                                         ExtractArgMetadata(command)[LevelPath([command.name], m, k)],
                                         MatchesAt(m, k)) == Ok(r.value.elems[k])
  {
    match FromExpr.DecodeCommand(spec)
    case Err(_) => Panic(DecodeFailed)
    case Panic(f) => Panic(f)
    case Ok(decoded) =>
      var command :- ToClap.CommandToClap(decoded);
      var meta := ExtractArgMetadata(command);
      match parse(command, argv)
      case ParseError(msg) => Ok(Failure(msg))
      case Parsed(m) =>
        var entries :- SerializeChain(meta, [command.name], command.name, m);
        Ok(List(entries))
  }

  /** A parse error is reported as data, never as a partial result. */
  lemma ParseErrorIsFailure(argv: seq<string>, spec: Expr, parse: (Command, seq<string>) -> ParseResult, c: ClapCommand, command: Command)
    requires FromExpr.DecodeCommand(spec) == Ok(c) && ToClap.CommandToClap(c) == Ok(command)
    requires parse(command, argv).ParseError?
    ensures ClapParse(argv, spec, parse) == Ok(Failure(parse(command, argv).message))
  {
  }

  /** End to end: a schema that decodes and builds into a tree with
      distinct sibling names, parsed into matches that conform to the tree,
      yields one entry per level of the selected chain. */
  lemma ClapParseSucceeds(argv: seq<string>, spec: Expr, parse: (Command, seq<string>) -> ParseResult, c: ClapCommand, command: Command)
    requires FromExpr.DecodeCommand(spec) == Ok(c) && ToClap.CommandToClap(c) == Ok(command)
    requires UniqueNames(command)
    requires parse(command, argv).Parsed? && ConformsTo(command, parse(command, argv).matches)
    ensures ClapParse(argv, spec, parse).Ok?
    ensures ClapParse(argv, spec, parse).value.Normal?
    ensures |ClapParse(argv, spec, parse).value.elems| == Depth(parse(command, argv).matches) + 1
    ensures var m := parse(command, argv).matches;
            forall k :: 0 <= k <= Depth(m) ==>
              && NodeAt(command, LevelPath([command.name], m, k)).Some?
              && ArgMatchesToExpr(LevelName(command.name, m, k),
                                  ArgsMetadata(NodeAt(command, LevelPath([command.name], m, k)).value.args),
                                  MatchesAt(m, k)) == Ok(ClapParse(argv, spec, parse).value.elems[k])
  {
    var m := parse(command, argv).matches;
    SerializeConformingChain(command, m);
    var entries := SerializeChain(ExtractArgMetadata(command), [command.name], command.name, m).value;
    assert ClapParse(argv, spec, parse).value.elems == entries;
    var meta := ExtractArgMetadata(command);
    LevelsAreRecorded(command, m);
    forall k | 0 <= k <= Depth(m)
      ensures ArgMatchesToExpr(LevelName(command.name, m, k),
                               ArgsMetadata(NodeAt(command, LevelPath([command.name], m, k)).value.args),
                               MatchesAt(m, k)) == Ok(entries[k])
    {
      assert ArgMatchesToExpr(LevelName(command.name, m, k), meta[LevelPath([command.name], m, k)], MatchesAt(m, k))
             == Ok(entries[k]);
    }
  }

  /** Along a conforming chain, the metadata of every level is the
      argument list of the node its path leads to. */
  lemma LevelsAreRecorded(command: Command, m: ArgMatches)
    requires UniqueNames(command) && ConformsTo(command, m)
    ensures forall k :: 0 <= k <= Depth(m) ==>
              && NodeAt(command, LevelPath([command.name], m, k)).Some?
              && LevelPath([command.name], m, k) in ExtractArgMetadata(command)
              && ExtractArgMetadata(command)[LevelPath([command.name], m, k)]
                 == ArgsMetadata(NodeAt(command, LevelPath([command.name], m, k)).value.args)
  {
    forall k | 0 <= k <= Depth(m) {
      LevelRecorded(command, m, k);
    }
  }

  lemma LevelRecorded(command: Command, m: ArgMatches, k: nat)
    requires UniqueNames(command) && ConformsTo(command, m) && k <= Depth(m)
    ensures RecordedAt(ExtractArgMetadata(command), LevelPath([command.name], m, k),
                       NodeAt(command, LevelPath([command.name], m, k)))
  {
    var q := LevelPath([command.name], m, k);
    LevelPathInPaths(command, m, k);
    assert Records(ExtractArgMetadata(command), [], command);
    assert [] + q == q;
  }

  /** The metadata key of every level of a conforming chain is a path of
      the tree. */
  lemma {:induction false} LevelPathInPaths(command: Command, m: ArgMatches, k: nat)
    requires ConformsTo(command, m) && k <= Depth(m)
    ensures LevelPath([command.name], m, k) in Paths(command)
    decreases k
  {
    if k == 0 {
      assert LevelPath([command.name], m, k) == [command.name];
    } else {
      var n, sm := m.subcommand.name, m.subcommand.matches;
      var i :| 0 <= i < |command.subcommands| && command.subcommands[i].name == n
               && ConformsTo(command.subcommands[i], sm);
      var q := LevelPath([n], sm, k - 1);
      LevelPathInPaths(command.subcommands[i], sm, k - 1);
      SubPathsMember(command.subcommands, q);
      assert [command.name] + q in Prefixed([command.name], SubPaths(command.subcommands));
      assert ChainNames(m)[..k] == [n] + ChainNames(sm)[..k - 1];
      assert LevelPath([command.name], m, k) == [command.name] + q;
    }
  }
}

=== FILE: spec_types.dfy ===
/** The decoded command-line schema (`ClapCommand`, `ClapArg`,
    `ClapCommandSettings`, `FlagSetting`) and the argument actions. */
module Spec {
  import opened Wrappers

  /** clap's `ArgAction`.  The decoder only ever produces the first five;
      `Help` and `Version` exist in clap and are refused by the serializer. */
  datatype ArgAction = Set | Append | SetTrue | SetFalse | Count | Help | Version

  /** How one form of flag (short or long) is obtained: given explicitly
      (`FlagSetting::Some`), not added (`FlagSetting::None`), or derived from
      the argument name (`FlagSetting::Automatic`). */
  datatype FlagSetting<T> = Explicit(value: T) | Disabled | Automatic

  datatype ClapArg = ClapArg(
    argName: string,
    action: Option<ArgAction>,
    flagSpec: Option<(FlagSetting<char>, FlagSetting<string>)>)

  datatype ClapCommandSettings = ClapCommandSettings(argRequiredElseHelp: Option<bool>)

  /** `Option<Vec<ClapCommand>>`: whether a subcommand list was given at all. */
  datatype Subcommands = Absent | Present(commands: seq<ClapCommand>)

  datatype ClapCommand = ClapCommand(
    commandName: string,
    args: seq<ClapArg>,
    subcommands: Subcommands,
    settings: Option<ClapCommandSettings>)
}

=== FILE: to_clap.dfy ===
/** The builder: `ClapCommand::to_clap` and `ClapArg::to_clap`. */
module ToClap {
  import opened Wrappers
  import opened Spec
  import opened Clap

  /** The short flag a setting asks for; the automatic one is the first
      character of the argument name, which aborts on an empty name. */
  function ShortFlag(argName: string, short: FlagSetting<char>): (r: Outcome<Option<char>, ()>)
    ensures !r.Err?
    ensures r.Panic? <==> short.Automatic? && argName == ""
    ensures short.Explicit? ==> r == Ok(Some(short.value))
    ensures short.Disabled? ==> r == Ok(None)
    ensures short.Automatic? && argName != "" ==> r == Ok(Some(argName[0]))
  {
    match short
    case Explicit(c) => Ok(Some(c))
    case Disabled => Ok(None)
    case Automatic => if |argName| == 0 then Panic(EmptyArgNameForShort) else Ok(Some(argName[0]))
  }

  /** The long flag a setting asks for; the automatic one is the whole
      argument name. */
  function LongFlag(argName: string, long: FlagSetting<string>): (r: Option<string>)
    ensures r.None? <==> long.Disabled?
    ensures long.Explicit? ==> r == Some(long.value)
    ensures long.Automatic? ==> r == Some(argName)
  {
    match long
    case Explicit(s) => Some(s)
    case Disabled => None
    case Automatic => Some(argName)
  }

  /** An argument whose building does not abort. */
  predicate ArgBuildable(a: ClapArg) {
    !(a.flagSpec.Some? && a.flagSpec.value.0.Automatic? && a.argName == "")
  }

  function ArgToClap(a: ClapArg): (r: Outcome<Arg, ()>)
    ensures !r.Err?
    ensures r.Ok? <==> ArgBuildable(a)
    ensures r.Panic? ==> r.fault == EmptyArgNameForShort
    ensures r.Ok? ==> r.value.id == a.argName && r.value.action == a.action
    ensures a.flagSpec.None? ==> r == Ok(NewArg(a.argName).(action := a.action))
    ensures r.Ok? && a.flagSpec.Some? ==>
              && (a.flagSpec.value.0.Explicit? ==> r.value.short == Some(a.flagSpec.value.0.value))
              && (a.flagSpec.value.0.Disabled? ==> r.value.short == None)
              && (a.flagSpec.value.0.Automatic? ==> r.value.short == Some(a.argName[0]))
              && (a.flagSpec.value.1.Explicit? ==> r.value.long == Some(a.flagSpec.value.1.value))
              && (a.flagSpec.value.1.Disabled? ==> r.value.long == None)
              && (a.flagSpec.value.1.Automatic? ==> r.value.long == Some(a.argName))
  {
    var arg := NewArg(a.argName).(action := a.action);
    match a.flagSpec
    case None => Ok(arg)
    case Some((short, long)) =>
      var s :- ShortFlag(a.argName, short);
      Ok(arg.(short := s, long := LongFlag(a.argName, long)))
  }

  /** An automatic flag builds the same argument as the explicit flag it
      derives: the first character of the name, and the whole name. */
  lemma AutomaticIsFirstCharAndName(name: string, action: Option<ArgAction>,
                                    short: FlagSetting<char>, long: FlagSetting<string>)
    requires name != ""
    ensures ArgToClap(ClapArg(name, action, Some((Automatic, long))))
            == ArgToClap(ClapArg(name, action, Some((Explicit(name[0]), long))))
    ensures ArgToClap(ClapArg(name, action, Some((short, Automatic))))
            == ArgToClap(ClapArg(name, action, Some((short, Explicit(name)))))
  {
  }

  /** With no flag list, or with both forms disabled, the argument has no
      flag at all (it is positional). */
  lemma NoFlagSpecIsPositional(name: string, action: Option<ArgAction>)
    ensures ArgToClap(ClapArg(name, action, None)) == Ok(Arg(name, action, None, None))
    ensures ArgToClap(ClapArg(name, action, Some((Disabled, Disabled)))) == Ok(Arg(name, action, None, None))
  {
  }

  function SubcommandList(c: ClapCommand): seq<ClapCommand> {
    match c.subcommands
    case Present(subs) => subs
    case Absent => []
  }

  /** A command tree whose building does not abort. */
  predicate Buildable(c: ClapCommand)
    decreases c
  {
    && (forall i :: 0 <= i < |c.args| ==> ArgBuildable(c.args[i]))
    && match c.subcommands
       case Absent => true
       case Present(subs) => forall i :: 0 <= i < |subs| ==> Buildable(subs[i])
  }

  function ArgsToClap(args: seq<ClapArg>): (r: Outcome<seq<Arg>, ()>)
    ensures !r.Err?
    ensures r.Ok? <==> forall i :: 0 <= i < |args| ==> ArgBuildable(args[i])
    ensures r.Panic? ==> r.fault == EmptyArgNameForShort
    ensures r.Ok? ==> |r.value| == |args|
                      && forall i :: 0 <= i < |args| ==> ArgToClap(args[i]) == Ok(r.value[i])
  {
    if |args| == 0 then Ok([])
    else
      var a :- ArgToClap(args[0]);
      var rest :- ArgsToClap(args[1..]);
      Ok([a] + rest)
  }

  /** Builds the command tree.  The name and the order of arguments and
      subcommands are kept; an absent subcommand list builds no
      subcommands. */
  function CommandToClap(c: ClapCommand): (r: Outcome<Command, ()>)
    ensures !r.Err?
    ensures r.Ok? <==> Buildable(c)
    ensures r.Panic? ==> r.fault == EmptyArgNameForShort
    ensures r.Ok? ==>
              && r.value.name == c.commandName
              && |r.value.args| == |c.args|
              && (forall i :: 0 <= i < |c.args| ==> ArgToClap(c.args[i]) == Ok(r.value.args[i]))
              && |r.value.subcommands| == |SubcommandList(c)|
              && (forall i :: 0 <= i < |SubcommandList(c)| ==>
                    CommandToClap(SubcommandList(c)[i]) == Ok(r.value.subcommands[i]))
              && (r.value.argRequiredElseHelp <==> c.settings == Some(ClapCommandSettings(Some(true))))
    decreases c
  {
    var subcommands :- match c.subcommands
                       case Present(subs) => CommandsToClap(subs)
                       case Absent => Ok([]);
    var args :- ArgsToClap(c.args);
    var command := NewCommand(c.commandName).(args := args, subcommands := subcommands);
    match c.settings
    case Some(ClapCommandSettings(Some(value))) => Ok(command.(argRequiredElseHelp := value))
    case _ => Ok(command)
  }

  function CommandsToClap(cs: seq<ClapCommand>): (r: Outcome<seq<Command>, ()>)
    ensures !r.Err?
    ensures r.Ok? <==> forall i :: 0 <= i < |cs| ==> Buildable(cs[i])
    ensures r.Panic? ==> r.fault == EmptyArgNameForShort
    ensures r.Ok? ==> |r.value| == |cs|
                      && forall i :: 0 <= i < |cs| ==> CommandToClap(cs[i]) == Ok(r.value[i])
    decreases cs
  {
    if |cs| == 0 then Ok([])
    else
      var c :- CommandToClap(cs[0]);
      var rest :- CommandsToClap(cs[1..]);
      Ok([c] + rest)
  }

  /** `subcommands = None` builds the same command as an empty list. */
  lemma AbsentSubcommandsAreEmpty(c: ClapCommand)
    ensures CommandToClap(c.(subcommands := Absent)) == CommandToClap(c.(subcommands := Present([])))
  {
  }

  /** Settings without a value leave the command as if no settings were
      given. */
  lemma EmptySettingsChangeNothing(c: ClapCommand)
    ensures CommandToClap(c.(settings := Some(ClapCommandSettings(None))))
            == CommandToClap(c.(settings := None))
  {
  }
}

=== FILE: wrappers.dfy ===
/** Failure-carrying datatypes shared by every part of the model.

    The Rust code distinguishes two kinds of failure: a recoverable `Err`
    returned through `Result`, and an abort (`panic!`, `expect`, `unwrap`,
    indexing a map with a missing key).  `Outcome` keeps the two apart, so
    that a contract can say which of them an input leads to.
 */
module Wrappers {

  datatype Option<+T> = None | Some(value: T)

  /** Why a run aborts: one variant per kind of abort, whether it is raised
      by the bridge itself or inside clap.  Payloads carry the data the panic
      message interpolates when it is plain text. */
  datatype Fault =
    | NameNotString                 // command or argument name is not a String
    | ActionNotString               // argument action is not a String
    | UnrecognizedAction(name: string)
    | FlagValueNotStringOrAutomatic // right-hand side of a flag rule
    | EmptyShortFlag                // "Short" -> ""
    | UnknownFlagKey                // left-hand side other than "Short"/"Long"
    | SettingNotBool                // "ArgRequiredElseHelp" -> non-boolean
    | UnknownSetting                // any other setting name
    | EmptyArgNameForShort          // automatic short flag of an empty name
    | DecodeFailed                  // `unwrap` of a decode error in clap_parse
    | MissingMetadata(path: seq<string>)
    | UnsupportedAction             // Help or Version reached the serializer
    | MatchTypeMismatch             // clap getter asked for the wrong value type
    | NotDefaulted                  // get_flag/get_count on an id with no value
    | MalformedPacletName

  /** `Ok`, a recoverable `Err`, or an abort. */
  datatype Outcome<+T, +E> = Ok(value: T) | Err(error: E) | Panic(fault: Fault) {

    predicate IsFailure() {
      !Ok?
    }

    function PropagateFailure<U>(): (r: Outcome<U, E>)
      requires !Ok?
      ensures r.Err? <==> Err?
      ensures Err? ==> r.error == error
      ensures Panic? ==> r == Panic(fault)
    {
      if Err? then Err(error) else Panic(fault)
    }

    function Extract(): T
      requires Ok?
    {
      value
    }
  }
}
